=== FILE: README.md ===
# gotickets storage engine in Dafny

gotickets keeps a list of tickets (id, title, URL, creation time) in
`~/.gotickets/tickets.json`, and backs that file up before every change. This
project models the storage engine of gotickets as pure functions over
immutable data, and proves properties of that model. The engine covers:

- the ticket record and the display number picked out of its URL;
- the store operations: add, delete, search and the URL lookup;
- the bulk importer of `<url> - <title>` lines;
- saving and loading the store;
- creating, listing and restoring backups;
- the selection index of the backup screen.

The file system is the repository's in-memory mock (test/mocks/filesystem.go): a map from
path to bytes, a set of directories, explicit `Stat` answers, and an error
injected per method name. Every storage function takes that file system and
returns the new one.

Modules, in dependency order:

- `Wrappers`: `Option` and `Result`.
- `Scan`: the leftmost and rightmost index satisfying a predicate, and an order-preserving filter.
- `GoStrings`: the Go string functions the engine uses.
  - `strings.TrimSpace` with the `unicode.IsSpace` set;
  - `strings.Index`, `Contains`, `SplitN(s, sep, 2)`, `HasPrefix`, `HasSuffix` and `TrimPrefix`;
  - ASCII `ToLower`;
  - `%d` and `%06d`.
- `MockFs`: the in-memory file system.
- `UrlPatterns`: the five regular expressions of the display-number cascade, as hand-written leftmost-first matchers with Go's semantics. In Go, `.` does not match a newline, `[^/]` does, and `$` matches only at the end of the text.
- `Tickets`: `Ticket`, `ExtractTicketNumber`, `GetTitle`, `FilterValue` and `GetDescription`.
- `TicketStore`: the store and its operations without backups.
- `Codec`: the JSON encoding, given as a pair of functions.
- `Paths`: the file locations.
- `Backups`: creating, listing and restoring backups.
- `Persistence`: `Save` and the loaders.
- `Engine`: add and delete, each preceded by a backup.
- `Importer`: `ImportFromFile`.
- `BackupPicker`: `HandleBackups`.

`ticket.go` is a second copy of the engine that reads a process-wide file
system variable instead of taking one as a parameter. Its functions behave as
the `internal/storage/storage.go` ones do, so the same members model both.
Rows cite `storage.go`, except for functions that exist only in `ticket.go`.

## Model

| member | source | states |
|---|---|---|
| `GoStrings.TrimSpace` | internal/storage/storage.go:183 | the result is the input with its leading and trailing `unicode.IsSpace` runs removed; it is empty exactly when every character is a space, and otherwise starts and ends with a non-space |
| `GoStrings.TrimSpaceIdempotent` | internal/storage/storage.go:183-192 | trimming twice is trimming once, so the URL and title the importer keeps are already trimmed |
| `GoStrings.IndexOf` | internal/storage/storage.go:187 | `strings.Index`: the result is an occurrence of the substring with no occurrence before it, and none means no occurrence anywhere |
| `GoStrings.SplitN2` | internal/storage/storage.go:187 | `SplitN(s, sep, 2)`: without an occurrence the input is returned whole; otherwise there are two parts, joining them around `sep` gives the input back, and the first part ends at the first occurrence |
| `GoStrings.ToLower` | internal/storage/storage.go:138-140 | same length; every character is lower-cased one by one (ASCII letters only) |
| `GoStrings.ToLowerIdempotent` | internal/storage/storage.go:138-140 | lower-casing twice is lower-casing once |
| `GoStrings.DecimalRoundTrip` | internal/storage/storage.go:72 | reading back the decimal digits printed for `n` gives `n` |
| `GoStrings.FormatZeroPadded` | internal/storage/storage.go:72 | `%06d`: exactly `max(width, digits)` characters for `n >= 0`, all digits with value `n`; for `n < 0` exactly `max(width, digits + 1)` characters, a `-` followed by digits whose value is `-n` |
| `Scan.FilterAppend` | internal/storage/storage.go:137-144 | filtering a concatenation is the concatenation of the filtered parts, so the filter keeps relative order |
| `MockFs.NewMockFileSystem` | test/mocks/filesystem.go:19-27 | a new mock holds the home directory and nothing else: no files, directories, `Stat` answers or errors |
| `MockFs.SetError` | test/mocks/filesystem.go:118-120 | later calls of that method fail with that error; the other methods' errors and all the files are kept, and no other method gains an error |
| `MockFs.UserHomeDir` | test/mocks/filesystem.go:29-34 | fails exactly when an error is injected for it, with that error, and otherwise returns the home directory |
| `MockFs.MkdirAll` | test/mocks/filesystem.go:36-42 | an injected error is returned with nothing changed; otherwise only the directory set grows |
| `MockFs.ReadFile` | test/mocks/filesystem.go:44-52 | an injected error wins; otherwise the stored bytes, or `ErrNotExist` for a path never written |
| `MockFs.WriteFile` | test/mocks/filesystem.go:54-60 | an injected error is returned with nothing changed; otherwise only that path's bytes change |
| `MockFs.Stat` | test/mocks/filesystem.go:81-92 | an injected error wins; an explicit `Stat` answer beats the file table; otherwise the call succeeds exactly for stored files and fails with `ErrNotExist` |
| `MockFs.ReadDir` | test/mocks/filesystem.go:62-79 | an injected error wins; otherwise every entry is a non-directory named after a stored file inside `dirname`, every such file is listed, and the entries come in the order the file map is visited |
| `MockFs.EntryNameOfChild` | test/mocks/filesystem.go:68-76 | a file `dirname/name` whose name has no separator is listed as `name` |
| `MockFs.EntryNameShapes` | test/mocks/filesystem.go:68-76 | a listed name has no separator, and the path it comes from is `dirname/name`, `dirname\name` or `dirname/dirname\name`; the last shape arises because both prefixes are trimmed |
| `MockFs.NestedFileListedAsChild` | test/mocks/filesystem.go:68-76 | because both prefixes are trimmed, `a/a\x` is listed in `a` as `x` |
| `MockFs.WriteThenRead` | test/mocks/filesystem.go:44-60 | reading a path just written returns the bytes written, and other paths read as before |
| `MockFs.WriteOverwrites` | test/mocks/filesystem.go:54-60 | a second write to a path replaces the first |
| `MockFs.StatAfterWrite` | test/mocks/filesystem.go:54-90 | `Stat` succeeds on a path after it is written |
| `MockFs.NeverWrittenDoesNotExist` | test/mocks/filesystem.go:51-91 | on a new mock, `ReadFile` and `Stat` of any path fail with `ErrNotExist` |
| `MockFs.MkdirAllInvisibleToReadDir` | test/mocks/filesystem.go:36-79 | creating a directory never changes what any listing returns |
| `UrlPatterns.ProjectKeyNumber` | internal/storage/storage.go:52-55 | `[A-Z]+-(\d+)`: there is no match exactly when no position holds uppercase letters, `-` and a digit; a match is a non-empty digit run, namely the one after the leftmost key |
| `UrlPatterns.LastSegmentNumber` | internal/storage/storage.go:56-59 | `.*[^/]/(\d+)(?:[/?#].*)?$`: there is no match exactly when no all-digit path segment ends the URL or is followed by `/`, `?` or `#`; a match takes the leftmost start at which the pattern matches and, from there, the last split the greedy `.*` can reach, and returns that segment's digits |
| `UrlPatterns.LastSegmentOnOneLine` | internal/storage/storage.go:56-59 | on a URL without a newline, the greedy `.*` makes the match the last qualifying segment |
| `UrlPatterns.TrailingNumber` | internal/storage/storage.go:60-63 | `/(\d+)(?:[/?#].*)?$`: there is no match exactly when no `/digits` ends the URL or is followed by `/`, `?` or `#`; otherwise the digits of the leftmost one |
| `UrlPatterns.TrailingNumberLeftmost` | internal/storage/storage.go:60-63 | the leftmost qualifying `/digits` supplies the number |
| `UrlPatterns.TrailingNumberOnlyAfterEmptySegment` | internal/storage/storage.go:56-63 | the third pattern only matches where the second could not: the `/digits` sits at the very start or right after another `/` |
| `UrlPatterns.KeywordNumber` | internal/storage/storage.go:64-67 | on the lower-cased URL: no match exactly when no keyword occurs there; otherwise the digits after the leftmost keyword of the lower-cased URL |
| `UrlPatterns.KeywordNumberIgnoresCase` | internal/storage/storage.go:64-67 | URLs that lower-case alike give the same keyword number |
| `UrlPatterns.LeftmostKeywordNumber` | internal/storage/storage.go:64-67 | `(?:issue\|ticket\|task)(?:s)?[/=](\d+)`: there is no match exactly when no keyword occurs; otherwise the digits after the leftmost keyword |
| `UrlPatterns.LeftmostKeywordWins` | internal/storage/storage.go:64-67 | the digits after the leftmost keyword occurrence are the ones taken |
| `UrlPatterns.LongNumber` | internal/storage/storage.go:68-71 | `(\d{6,})`: there is no match exactly when no run of six digits occurs; otherwise the whole digit run at the leftmost place where six digits start |
| `UrlPatterns.LongNumberLeftmost` | internal/storage/storage.go:68-71 | the leftmost place where six digits start supplies the number |
| `UrlPatterns.NoDigitsNoMatch` | internal/storage/storage.go:51-72 | a URL without any digit matches none of the five patterns |
| `Tickets.ExtractTicketNumber` | internal/storage/storage.go:51-73 | for an id `>= 0` the result is a non-empty digit string; when no pattern matches it is the id printed with `%06d`: at least six characters with the id's value, or a `-` form for a negative id |
| `Tickets.ProjectKeyWins` | ticket.go:73-78 | a project key anywhere decides the number (`PROJ-789` gives `789`), whatever else the URL holds |
| `Tickets.LastPathSegmentWins` | ticket.go:80-86 | without a project key, the last all-digit segment of a one-line URL is shown (`.../issues/456/` gives `456`, `.../project/123/issues/456789` gives `456789`) |
| `Tickets.KeywordWins` | ticket.go:95-100 | when no path pattern matches, the digits after the leftmost keyword in the lower-cased URL are shown (`task=999888` gives `999888`) |
| `Tickets.TrailingNumberWins` | internal/storage/storage.go:52-63 | without a project key or a last digit segment, the leftmost `/digits` that ends the URL or precedes `/`, `?` or `#` is shown |
| `Tickets.LongNumberWins` | internal/storage/storage.go:52-71 | when none of the first four patterns matches, the leftmost run of six or more digits is shown whole |
| `Tickets.NoDigitsShowsPaddedId` | ticket.go:102-110 | a URL without digits shows the zero-padded id |
| `Tickets.PaddedIdOne` | ticket_test.go:624-628 | id 1 is shown as `000001` |
| `Tickets.GetTitle` | internal/storage/storage.go:75-77 | the display title starts with `SCR #` and ends with the ticket's title |
| `Tickets.NumberHasNoSpace` | internal/storage/storage.go:51-73 | whichever rule supplies it, the display number is non-empty and holds no space |
| `Tickets.DisplayTitleSplitsBack` | internal/storage/storage.go:75-77 | for every ticket, negative ids included, splitting the display title at its first ` - ` gives back `SCR #<number>` and the whole title, even when the title itself contains ` - ` |
| `Tickets.FilterValue` | internal/storage/storage.go:48 | the filter text is as long as the title, one space and the URL together |
| `Tickets.GetDescription` | internal/storage/storage.go:78 | the description is exactly as long as the URL; `Tickets.ListItemTexts` pins it to the URL itself |
| `Tickets.ListItemTexts` | internal/storage/storage.go:48-78 | `FilterValue` is the title, a space, then the URL; `GetDescription` is the URL itself |
| `TicketStore.NewTicketStorage` | internal/storage/storage.go:93 | a new store has no tickets and its next id is 1 |
| `TicketStore.Add` | internal/storage/storage.go:124-131 | appends `{old next id, title, url}` after the unchanged earlier tickets and raises the next id by exactly one, with no duplicate check; it preserves "ids distinct and below the next id" |
| `TicketStore.AddAllAppends` | internal/storage/storage.go:124-131 | N adds append N tickets with consecutive ids from the old next id, and raise the counter by N |
| `TicketStore.AddsFromNewStore` | internal/storage/storage.go:93-131 | from a new store, the k-th ticket added gets id k, and the next id is 1 + N after N adds |
| `TicketStore.HasTicketWithURL` | internal/storage/storage.go:160-167 | true exactly when some ticket's URL equals the argument |
| `TicketStore.HasUrlAfterAdd` | internal/storage/storage.go:124-167 | after an add, the URLs present are the old ones plus the new one |
| `TicketStore.AddFreshUrlKeepsDistinct` | internal/storage/storage.go:124-167 | adding a URL the store lacks keeps all URLs distinct |
| `TicketStore.FirstWithId` | internal/storage/storage.go:151-152 | the position of the first ticket with the id, and none exactly when no ticket has it |
| `TicketStore.Delete` | internal/storage/storage.go:147-158 | true exactly when some ticket has the id; then only the first such ticket is removed and the rest keep their order; otherwise the store is unchanged; the next id never changes and the id invariant is kept |
| `TicketStore.DeleteTwice` | internal/storage/storage.go:147-158 | deleting an existing id succeeds, and deleting it again fails and changes nothing |
| `TicketStore.Search` | internal/storage/storage.go:133-145 | the empty query returns every ticket; otherwise every result is a stored ticket whose lower-cased title or URL contains the lower-cased query, and every such ticket is returned |
| `TicketStore.SearchKeepsOrder` | internal/storage/storage.go:137-144 | search distributes over concatenation, so the results keep store order |
| `TicketStore.SearchIgnoresQueryCase` | internal/storage/storage.go:138 | queries that lower-case alike give the same results |
| `TicketStore.IdsNeverReused` | internal/storage/storage.go:124-158 | over any run of adds and deletes the next id never decreases, ids stay distinct and below it, and every ticket created during the run has an id no ticket held before, deleted ones included |
| `Paths.BackupPathIsNotPrimary` | internal/storage/storage.go:108-115 | with the join as modelled (see Left out), a backup path never equals the primary path, whatever the timestamp |
| `Backups.CreateBackup` | internal/storage/storage.go:102-122 | on a home-dir error, that error and nothing changed; a primary file `Stat` reports missing gives success with nothing changed; otherwise a failed read of the primary gives "failed to read tickets file for backup" with its cause, a failed write gives "failed to create backup" with its cause, each changing nothing, and a successful read and write stores exactly the primary's bytes at the backup path and changes nothing else |
| `Backups.BackupLeavesPrimary` | ticket.go:136-167 | taking a backup never creates, removes or changes the primary file |
| `Backups.BackupNames` | internal/storage/storage.go:267-272 | exactly the non-directory entries named `tickets_backup_*.json` are kept |
| `Backups.BackupNamesAppend` | internal/storage/storage.go:267-272 | filtering the entries keeps their listing order |
| `Backups.ListBackups` | internal/storage/storage.go:258-275 | home-dir and `ReadDir` errors are returned as they are; otherwise every name is a backup name of a file in the data directory, every such file is listed, and the names are exactly `BackupsInOrder`: the backup files in the directory's visiting order, each once |
| `Backups.BackupNamesOfListing` | internal/storage/storage.go:267-272 | filtering a directory listing to backup names equals filtering the visited files directly, order and multiplicity included |
| `Backups.BackupIsListed` | internal/storage/storage.go:258-275 | after a backup is written with a separator-free stamp, the listing contains its name |
| `Backups.RestoreFromBackup` | internal/storage/storage.go:277-300 | on a home-dir error, that error; a backup `Stat` reports missing gives "backup file not found"; otherwise a failed read gives "failed to read backup file", bytes that do not decode give "backup file is corrupted", a failed write gives "failed to restore from backup", each with its cause and nothing written; and decodable bytes written without error replace the primary file's bytes and change nothing else |
| `Backups.RestoreValidBackup` | internal/storage/storage.go:277-300 | with no injected errors, a present backup that decodes is restored: the primary holds its bytes |
| `Backups.BackupRestoreRoundTrip` | internal/storage/storage.go:277-300 | back up, overwrite the primary, restore that backup: the primary's original bytes are back |
| `Persistence.Save` | internal/storage/storage.go:213-229 | succeeds exactly when the home dir, the directory creation, the encoding and the write all succeed; on success the primary file holds the encoded store and the data directory is recorded; a home-dir or `MkdirAll` error is returned with nothing changed; an encoding failure returns the encoder's reason and a write failure the `WriteFile` error, each with the data directory recorded and no file changed |
| `Persistence.LoadFromPath` | internal/storage/storage.go:240-256 | never fails; an unreadable or undecodable file gives a new store; a decoded next id of 0 becomes 1 and any other value, negatives included, is kept |
| `Persistence.Load` | internal/storage/storage.go:231-238 | a home-dir error gives a new store; otherwise the primary file is loaded; the next id is never 0 |
| `Persistence.SaveThenLoad` | internal/storage/storage.go:213-256 | with a codec that round-trips on the store, saving then loading gives the same store back |
| `Engine.AddTicket` | internal/storage/storage.go:124-131 | the file system afterwards is the one `CreateBackup` leaves, so with nothing injected and a primary file present the backup under the clock's stamp holds the primary's bytes; the new store is the plain add whatever the backup did, and the primary file is untouched |
| `Engine.DeleteTicket` | internal/storage/storage.go:147-158 | the file system afterwards is the one `CreateBackup` leaves, so with nothing injected and a primary file present the backup under the clock's stamp holds the primary's bytes; the new store and the answer are the plain delete's whatever the backup did, and the primary file is untouched |
| `Importer.ParseLine` | internal/storage/storage.go:183-199 | a blank line is exactly one that trims to empty; a malformed line is exactly a non-blank one without ` - `; when the trimmed line has a ` - `, the URL is the trimmed text before its first occurrence and the title the trimmed text after it, and the line is an empty-field error exactly when either is empty |
| `Importer.ParseEntryLine` | internal/storage/storage.go:183-199 | a line written as `<url> - <title>`, both trimmed and non-empty and the URL leaving no room for an earlier ` - `, parses back to exactly that URL and that title |
| `Importer.NeverEmptyField` | internal/storage/storage.go:183-199 | the "empty URL or title" branch can never fire: the line is trimmed before it is split |
| `Importer.TrailKeepsPrimary` | internal/storage/storage.go:169-205 | the backups taken during an import never touch the primary file |
| `Importer.TrailWritesCopies` | internal/storage/storage.go:169-205 | with nothing injected and a primary file present, after the import's backups every line that added a ticket has a copy of the primary under its stamp, and every copy present before is still there |
| `Importer.TrailCopyForLine` | internal/storage/storage.go:169-205 | the backup for an adding line, once written, survives all later lines |
| `Importer.ImportTrailWritesCopies` | internal/storage/storage.go:169-205 | the initial backup and one backup per added ticket are all present after an import, each holding the primary's bytes |
| `Backups.BackupWritesCopy` | internal/storage/storage.go:102-122 | with nothing injected and a primary file present, a backup writes a copy of the primary under its stamp, keeps every copy already there, and leaves the primary and the injected errors alone |
| `Importer.ImportAccounting` | internal/storage/storage.go:169-211 | added + duplicates + errors equals the number of non-blank lines; there is one message per error; the messages are the format errors, in file order, numbered from 1 with blank lines counted |
| `Importer.ImportUrls` | internal/storage/storage.go:200-205 | during an import the store holds a URL exactly when it held it at the start or an earlier entry line carried it |
| `Importer.AddsIffAccepted` | internal/storage/storage.go:200-205 | a line adds a ticket exactly when it is an entry whose URL is neither in the starting store nor on an earlier entry line, so duplicates within one file are suppressed |
| `Importer.ImportAppendsAccepted` | internal/storage/storage.go:169-211 | the ticket list grows by exactly the accepted lines' tickets, in file order, with consecutive ids from the old next id; added equals their number |
| `Importer.ImportKeepsUrlsDistinct` | internal/storage/storage.go:160-205 | an import never gives two tickets the same URL |
| `Importer.ImportFromFile` | internal/storage/storage.go:169-211 | a file that cannot be opened gives zero counts, no messages and an unchanged store, plus the open error; a read error keeps the partial counts and adds the error; the accounting, append and URL-distinctness properties hold; the primary file is untouched; the file system is the one the initial backup and then one backup per added ticket leave, and with nothing injected and a primary file present each of those backups holds the primary's bytes |
| `Importer.ImportIgnoresFileSystem` | ticket.go:229-234 | for a given `Source`, the counts, the error and the store after an import do not depend on the file system the backups use, or on whether the backups succeed |
| `BackupPicker.HandleBackups` | internal/ui/backup.go:6-44 | `ctrl+c`, `q` and `esc` return to the list with index -1; up/`k` and down/`j` move with wrap-around; enter opens the restore confirmation for the selected name only when the index is valid; any other key changes nothing; the list itself never changes |
| `BackupPicker.MovingInEmptyList` | internal/ui/backup.go:15-24 | with no backups, up and down leave the model unchanged |
| `BackupPicker.MoveLandsInRange` | internal/ui/backup.go:14-31 | from any index in [-1, n) with n > 0, one move lands in [0, n) |
| `BackupPicker.UpDownInverse` | internal/ui/backup.go:14-31 | on valid indexes, up and down undo each other |
| `BackupPicker.MovesWrap` | internal/ui/backup.go:14-31 | up from 0 goes to the last index, and down from the last index goes to 0 |
| `BackupPicker.DownTimesAdd` | internal/ui/backup.go:23-31 | `a` presses of down then `b` more equal `a + b` presses |
| `BackupPicker.DownFullCycle` | internal/ui/backup.go:23-31 | `n` presses of down return to the start, and no smaller positive number of presses does |
| `BackupPicker.EnterNeedsSelection` | internal/ui/backup.go:32-37 | enter reaches the confirmation exactly when the index is valid (or it was already showing), and then it names the selected backup |

## Left out

- `RealFileSystem`, the `getFS` nil fallback and the mock's `Open`: the first two only delegate to the `os` package. `Open` creates real temporary files. The importer therefore takes its input as a `Source`: either an open error, or the lines a scanner read plus an optional read error.
- `bufio.Scanner` internals, such as the 64 KiB line limit and the stripping of a final carriage return, are inside the `Source` parameter.
- `encoding/json`: the codec is a pair of functions given as a parameter. Its round trip on a store is a hypothesis of `Persistence.SaveThenLoad`, not a proof about JSON. `Save`'s indentation is part of the codec.
- `time.Now` and timestamp formatting are parameters.
  - The add and delete functions take one `Clock` reading: the instant the ticket records and the same instant formatted as the backup stamp.
  - The importer takes one reading per line (`clockAt`), with reading 0 for the initial backup.
- `Timestamp` holds one integer. Time zones and monotonic clock readings are not modelled.
- `filepath.Join` is modelled as joining with `/`, without `filepath.Clean`. Where the path separator is `/`, this agrees with Go for a clean home directory other than `/` and `.`, joined with a non-empty, separator-free name other than `.` and `..`. Outside that, Go cleans the result and the model does not. A home of `/` gives `//.gotickets` in the model and `/.gotickets` in Go. A backup name given to `RestoreFromBackup` that holds `..` or `//`, or is empty, is joined as given. Where the separator is `\` (Windows), Go joins with `\` and the model still joins with `/`: a home of `C:\Users\me` gives `C:\Users\me\.gotickets` in Go and `C:\Users\me/.gotickets` in the model.
- `Paths.BackupPathIsNotPrimary` holds for every stamp under the modelled join. Under Go's cleaning join it holds for separator-free stamps, and the source's stamps are separator-free time strings.
- `strings.ToLower` is modelled on ASCII letters only. Unicode case folding is not modelled.
- `MockFs.SetError`: the error is never nil. Go's mock also accepts a nil error; the method then finds the key, returns nil and zero values, and skips its effect (a write stores nothing, a read returns no bytes). None of the repository's `SetError` calls passes nil, and the model does not cover it.
- Go's slices share storage, and the model's sequences are values. `Search("")` returns the store's own slice, and `Delete`'s in-place `append` shifts the elements under an earlier search result. Neither aliasing effect is modelled.
- The error texts are recorded in the doc comments of `Backups.StorageError` and `Importer.ImportError`. Formatting them with `%v` is not modelled.
- `TicketStore.Add`: the next id is an unbounded integer. The 64-bit wrap-around of Go's `int` after 2^63 - 1 tickets is not modelled.
- `fmt.Printf` warnings printed when a backup fails are not modelled. They change no state.
- `Tickets.ExtractTicketNumber`: the model uses Go's leftmost-first regular-expression semantics. A URL containing a newline is handled faithfully, and `Tickets.LastPathSegmentWins` is stated only for one-line URLs.
- `Importer.ImportFromFile`: the per-ticket backups are an explicit fold, `Importer.BackupTrail`, beside the store fold, rather than a call to `Engine.AddTicket` inside it. Each step performs the same `CreateBackup` call with the same stamp.
- The terminal interface beyond the backup screen is not part of this model. This covers `ui.go`, `internal/ui` except `backup.go`, and `pkg/gotickets/ui.go`. These are rendering and dispatch on libraries outside this model.
- The browser and clipboard helpers are not part of this model.
- The forwarding wrappers in `pkg/gotickets/ticket.go` and the entry point `cmd/gotickets/main.go` are not part of this model.

=== FILE: backup_picker.dfy ===
/** The backup list screen: a selection index over the backup names that
    wraps around at both ends, and the step to the restore confirmation. */
module BackupPicker {
  /** The screens of the interface. */
  datatype ViewMode =
    | ViewList | ViewAddURL | ViewAddTitle | ViewConfirmDelete
    | ViewImport | ViewImportResult | ViewBackups | ViewConfirmRestore

  /** The part of the interface model the backup screen reads and writes. An
      index of -1 means nothing is selected. */
  datatype Picker = Picker(viewMode: ViewMode, backups: seq<string>, selected: int, toRestore: string)

  predicate IsQuit(key: string) {
    key == "ctrl+c" || key == "q"
  }

  predicate IsUp(key: string) {
    key == "up" || key == "k"
  }

  predicate IsDown(key: string) {
    key == "down" || key == "j"
  }

  /** The index after moving up in a list of `n` names. */
  function Up(n: nat, i: int): int {
    if n > 0 then (if i > 0 then i - 1 else n - 1) else i
  }

  /** The index after moving down in a list of `n` names. */
  function Down(n: nat, i: int): int {
    if n > 0 then (if i < n - 1 then i + 1 else 0) else i
  }

  /** `HandleBackups`: react to one key on the backup screen. */
  function HandleBackups(m: Picker, key: string): (r: Picker)
    ensures r.backups == m.backups
    ensures (IsQuit(key) || key == "esc") ==> r == m.(viewMode := ViewList, selected := -1)
    ensures IsUp(key) ==> r == m.(selected := Up(|m.backups|, m.selected))
    ensures IsDown(key) ==> r == m.(selected := Down(|m.backups|, m.selected))
    ensures key == "enter" ==>
      if 0 <= m.selected < |m.backups| then
        r == m.(viewMode := ViewConfirmRestore, toRestore := m.backups[m.selected])
      else r == m
    ensures !(IsQuit(key) || IsUp(key) || IsDown(key) || key == "enter" || key == "esc") ==> r == m
  {
    if IsQuit(key) then m.(viewMode := ViewList, selected := -1)
    else if IsUp(key) then
      if |m.backups| > 0 then
        if m.selected > 0 then m.(selected := m.selected - 1) else m.(selected := |m.backups| - 1)
      else m
    else if IsDown(key) then
      if |m.backups| > 0 then
        if m.selected < |m.backups| - 1 then m.(selected := m.selected + 1) else m.(selected := 0)
      else m
    else if key == "enter" then
      if |m.backups| > 0 && m.selected >= 0 && m.selected < |m.backups| then
        m.(toRestore := m.backups[m.selected], viewMode := ViewConfirmRestore)
      else m
    else if key == "esc" then m.(viewMode := ViewList, selected := -1)
    else m
  }

  /** With no backups, moving changes nothing. */
  lemma MovingInEmptyList(m: Picker, key: string)
    requires m.backups == [] && (IsUp(key) || IsDown(key))
    ensures HandleBackups(m, key) == m
  {
  }

  /** From no selection or any valid one, a single move lands on a valid
      index. */
  lemma MoveLandsInRange(n: nat, i: int)
    requires 0 < n && -1 <= i < n
    ensures 0 <= Up(n, i) < n && 0 <= Down(n, i) < n
  {
  }

  /** On valid indexes, up and down undo each other. */
  lemma UpDownInverse(n: nat, i: int)
    requires 0 <= i < n
    ensures Down(n, Up(n, i)) == i && Up(n, Down(n, i)) == i
  {
  }

  /** Up from the top wraps to the last name; down from the last wraps to
      the top. */
  lemma MovesWrap(n: nat)
    requires n > 0
    ensures Up(n, 0) == n - 1 && Down(n, n - 1) == 0
  {
  }

  /** Pressing down `k` times. */
  function DownTimes(n: nat, i: int, k: nat): int {
    if k == 0 then i else Down(n, DownTimes(n, i, k - 1))
  }

  /** Pressing down `a` times and then `b` times is pressing it `a + b` times. */
  lemma {:induction false} DownTimesAdd(n: nat, i: int, a: nat, b: nat)
    ensures DownTimes(n, i, a + b) == DownTimes(n, DownTimes(n, i, a), b)
  {
    if b > 0 {
      DownTimesAdd(n, i, a, b - 1);
    }
  }

  /** Below the last name, each press moves one place down. */
  lemma {:induction false} DownTimesClimbs(n: nat, i: int, k: nat)
    requires 0 <= i && i + k < n
    ensures DownTimes(n, i, k) == i + k
  {
    if k > 0 {
      DownTimesClimbs(n, i, k - 1);
    }
  }

  /** `n` presses of down visit every name once and come back to the start. */
  lemma DownFullCycle(n: nat, i: int)
    requires 0 <= i < n
    ensures DownTimes(n, i, n) == i
    ensures forall k :: 0 < k < n ==> DownTimes(n, i, k) != i
  {
    DownTimesClimbs(n, i, n - i - 1);
    DownTimesAdd(n, i, n - i, i);
    if i > 0 {
      DownTimesClimbs(n, 0, i - 1);
    }
    forall k | 0 < k < n
      ensures DownTimes(n, i, k) != i
    {
      if k < n - i {
        DownTimesClimbs(n, i, k);
      } else {
        DownTimesAdd(n, i, n - i, k - (n - i));
        if k - (n - i) > 0 {
          DownTimesClimbs(n, 0, k - (n - i) - 1);
        }
      }
    }
  }

  /** Enter opens the confirmation for exactly the selected backup, and only
      when the index is valid. */
  lemma EnterNeedsSelection(m: Picker)
    ensures HandleBackups(m, "enter").viewMode == ViewConfirmRestore <==>
      (0 <= m.selected < |m.backups| || m.viewMode == ViewConfirmRestore)
    ensures 0 <= m.selected < |m.backups| ==> HandleBackups(m, "enter").toRestore == m.backups[m.selected]
  {
  }
}

=== FILE: backups.dfy ===
/** Where the engine keeps its files: `<home>/.gotickets/tickets.json` and the
    timestamped backups beside it. */
module Paths {
  import opened GoStrings

  const DataDirName: string := ".gotickets"
  const PrimaryName: string := "tickets.json"
  const BackupPrefix: string := "tickets_backup_"
  const BackupSuffix: string := ".json"

  /** `filepath.Join` of a clean directory and a separator-free name. */
  function Join(dir: string, name: string): (r: string)
    ensures dir != "" ==> HasPrefix(r, dir + "/") && r[|dir| + 1..] == name
  {
    if dir == "" then name else dir + "/" + name
  }

  function DataDir(home: string): string {
    Join(home, DataDirName)
  }

  function PrimaryPath(home: string): string {
    Join(DataDir(home), PrimaryName)
  }

  /** `tickets_backup_<stamp>.json`, where the stamp is the local time as
      `2006-01-02_15-04-05`. */
  function BackupName(stamp: string): (r: string)
    ensures IsBackupName(r)
  {
    BackupPrefix + stamp + BackupSuffix
  }

  function BackupPath(home: string, stamp: string): string {
    Join(DataDir(home), BackupName(stamp))
  }

  /** The names `listBackups` keeps. */
  predicate IsBackupName(name: string) {
    HasPrefix(name, BackupPrefix) && HasSuffix(name, BackupSuffix)
  }

  /** A stamp without separators gives a backup name without separators, so
      the backup sits directly in the data directory. */
  lemma BackupNameHasNoSeparator(stamp: string)
    requires '/' !in stamp && '\\' !in stamp
    ensures '/' !in BackupName(stamp) && '\\' !in BackupName(stamp)
  {
    var name := BackupName(stamp);
    forall i | 0 <= i < |name|
      ensures name[i] in BackupPrefix || name[i] in stamp || name[i] in BackupSuffix
    {
      if i < |BackupPrefix| {
        assert name[i] == BackupPrefix[i];
      } else if i < |BackupPrefix| + |stamp| {
        assert name[i] == stamp[i - |BackupPrefix|];
      } else {
        assert name[i] == BackupSuffix[i - |BackupPrefix| - |stamp|];
      }
    }
  }

  /** Under this join, a backup never lands on the primary file, whatever
      the stamp. */
  lemma BackupPathIsNotPrimary(home: string, stamp: string)
    ensures BackupPath(home, stamp) != PrimaryPath(home)
  {
    assert |BackupName(stamp)| > |PrimaryName|;
  }
}

/** Backups of the primary file: creating one before every mutation, listing
    them, and restoring the primary from one. */
module Backups {
  import opened Wrappers
  import opened GoStrings
  import opened MockFs
  import opened TicketStore
  import opened Codec
  import opened Paths

  /** The errors the storage functions return. `FsFailure` passes a file
      system error through unchanged; every other case stands for a wrapped
      error whose text is a fixed prefix and then the cause:
      "failed to read tickets file for backup: ", "failed to create backup: ",
      "backup file not found: " (then the name), "failed to read backup file: ",
      "backup file is corrupted: " (then the decoder's reason) and
      "failed to restore from backup: ". `EncodeFailed` carries the encoder's
      own message. */
  datatype StorageError =
    | FsFailure(cause: FsError)
    | BackupReadFailed(cause: FsError)
    | BackupWriteFailed(cause: FsError)
    | BackupNotFound(name: string)
    | BackupUnreadable(cause: FsError)
    | BackupCorrupted(reason: string)
    | RestoreWriteFailed(cause: FsError)
    | EncodeFailed(reason: string)

  /** The file system after a storage call and the error it returned, if any. */
  datatype Outcome = Outcome(fs: FS, err: Option<StorageError>)

  /** The file system is the same apart from the contents of `path`. */
  predicate OnlyFileChanged(before: FS, after: FS, path: string) {
    && after == before.(files := after.files)
    && (forall p :: p in before.files && p != path ==> p in after.files && after.files[p] == before.files[p])
    && (forall p :: p in after.files && p != path ==> p in before.files)
  }

  /** `CreateBackupUsing`: copy the primary file's bytes to a backup named by
      `stamp`. A primary that `Stat` reports missing is not an error; any other
      `Stat` failure is ignored and the copy is attempted. */
  function CreateBackup(fs: FS, stamp: string): (r: Outcome)
    ensures "UserHomeDir" in fs.errors ==> r == Outcome(fs, Some(FsFailure(fs.errors["UserHomeDir"])))
    ensures r.fs == fs || OnlyFileChanged(fs, r.fs, BackupPath(fs.homeDir, stamp))
    ensures r.fs != fs ==>
      && r.err.None? && PrimaryPath(fs.homeDir) in fs.files && BackupPath(fs.homeDir, stamp) in r.fs.files
      && r.fs.files[BackupPath(fs.homeDir, stamp)] == fs.files[PrimaryPath(fs.homeDir)]
    ensures r.err.Some? ==> r.fs == fs
    ensures "UserHomeDir" !in fs.errors && Stat(fs, PrimaryPath(fs.homeDir)) == Failure(ErrNotExist) ==> r == Outcome(fs, None)
    ensures r.err.Some? && r.err.value.BackupReadFailed? ==>
      ReadFile(fs, PrimaryPath(fs.homeDir)) == Failure(r.err.value.cause)
    ensures r.err.Some? && r.err.value.BackupWriteFailed? ==>
      "WriteFile" in fs.errors && r.err.value.cause == fs.errors["WriteFile"]
    ensures r.err.Some? ==> r.err.value.FsFailure? || r.err.value.BackupReadFailed? || r.err.value.BackupWriteFailed?
    ensures NoErrorsInjected(fs) && PrimaryPath(fs.homeDir) in fs.files ==>
      r.err.None? && BackupPath(fs.homeDir, stamp) in r.fs.files
    ensures var read := ReadFile(fs, PrimaryPath(fs.homeDir));
      "UserHomeDir" !in fs.errors && Stat(fs, PrimaryPath(fs.homeDir)) != Failure(ErrNotExist) && read.Failure? ==>
      r == Outcome(fs, Some(BackupReadFailed(read.error)))
    ensures var read := ReadFile(fs, PrimaryPath(fs.homeDir));
      "UserHomeDir" !in fs.errors && Stat(fs, PrimaryPath(fs.homeDir)) != Failure(ErrNotExist) && read.Success?
      && "WriteFile" in fs.errors ==>
      r == Outcome(fs, Some(BackupWriteFailed(fs.errors["WriteFile"])))
    ensures var read := ReadFile(fs, PrimaryPath(fs.homeDir));
      "UserHomeDir" !in fs.errors && Stat(fs, PrimaryPath(fs.homeDir)) != Failure(ErrNotExist) && read.Success?
      && "WriteFile" !in fs.errors ==>
      r == Outcome(fs.(files := fs.files[BackupPath(fs.homeDir, stamp) := read.value]), None)
  {
    match UserHomeDir(fs)
    case Failure(e) => Outcome(fs, Some(FsFailure(e)))
    case Success(home) =>
      var primary := PrimaryPath(home);
      var st := Stat(fs, primary);
      if st.Failure? && IsNotExist(st.error) then Outcome(fs, None)
      else
        match ReadFile(fs, primary)
        case Failure(e) => Outcome(fs, Some(BackupReadFailed(e)))
        case Success(data) =>
          var w := WriteFile(fs, BackupPath(home, stamp), data);
          if w.err.Some? then Outcome(fs, Some(BackupWriteFailed(w.err.value)))
          else Outcome(w.fs, None)
  }

  /** No method of the file system has an injected error. */
  predicate NoErrorsInjected(fs: FS) {
    fs.errors == map[]
  }

  /** `path` holds a copy of the primary file's bytes. */
  predicate HoldsPrimaryCopy(fs: FS, path: string) {
    && PrimaryPath(fs.homeDir) in fs.files
    && path in fs.files && fs.files[path] == fs.files[PrimaryPath(fs.homeDir)]
  }

  /** With nothing injected and a primary file present, a backup writes a
      copy of the primary under its stamp, keeps every earlier copy, leaves
      the primary alone and injects nothing. */
  lemma BackupWritesCopy(fs: FS, stamp: string)
    ensures NoErrorsInjected(fs) && PrimaryPath(fs.homeDir) in fs.files ==>
      var r := CreateBackup(fs, stamp).fs;
      && NoErrorsInjected(r) && r.homeDir == fs.homeDir
      && HoldsPrimaryCopy(r, BackupPath(fs.homeDir, stamp))
      && r.files[PrimaryPath(fs.homeDir)] == fs.files[PrimaryPath(fs.homeDir)]
      && forall p :: HoldsPrimaryCopy(fs, p) ==> HoldsPrimaryCopy(r, p)
  {
  }

  /** The primary file is never written by a backup. */
  lemma BackupLeavesPrimary(fs: FS, stamp: string)
    ensures PrimaryPath(fs.homeDir) in CreateBackup(fs, stamp).fs.files <==> PrimaryPath(fs.homeDir) in fs.files
    ensures PrimaryPath(fs.homeDir) in fs.files ==>
      CreateBackup(fs, stamp).fs.files[PrimaryPath(fs.homeDir)] == fs.files[PrimaryPath(fs.homeDir)]
  {
    BackupPathIsNotPrimary(fs.homeDir, stamp);
  }

  /** The names of the non-directory entries that look like backups, in
      listing order. */
  function BackupNames(entries: seq<DirEntry>): (r: seq<string>)
    ensures |r| <= |entries|
    ensures forall i :: 0 <= i < |r| ==> IsBackupName(r[i])
    ensures forall i :: 0 <= i < |r| ==> exists k :: 0 <= k < |entries| && !entries[k].isDir && entries[k].name == r[i]
    ensures forall k :: 0 <= k < |entries| && !entries[k].isDir && IsBackupName(entries[k].name) ==>
      entries[k].name in r
  {
    if entries == [] then []
    else
      var rest := BackupNames(entries[1..]);
      assert forall k :: 1 <= k < |entries| ==> entries[k] == entries[1..][k - 1];
      forall i | 0 <= i < |rest|
        ensures exists k :: 0 <= k < |entries| && !entries[k].isDir && entries[k].name == rest[i]
      {
        var k :| 0 <= k < |entries[1..]| && !entries[1..][k].isDir && entries[1..][k].name == rest[i];
        assert entries[k + 1] == entries[1..][k];
      }
      if !entries[0].isDir && IsBackupName(entries[0].name) then
        assert forall i :: 0 <= i < |rest| ==> ([entries[0].name] + rest)[i + 1] == rest[i];
        [entries[0].name] + rest
      else rest
  }

  /** What one entry contributes to `BackupNames`. */
  function BackupNameOf(e: DirEntry): seq<string> {
    if !e.isDir && IsBackupName(e.name) then [e.name] else []
  }

  lemma BackupNamesCons(entries: seq<DirEntry>)
    requires entries != []
    ensures BackupNames(entries) == BackupNameOf(entries[0]) + BackupNames(entries[1..])
  {
    var rest := BackupNames(entries[1..]);
    if !entries[0].isDir && IsBackupName(entries[0].name) {
      assert BackupNames(entries) == [entries[0].name] + rest;
    } else {
      assert BackupNames(entries) == rest;
      assert BackupNameOf(entries[0]) + rest == rest;
    }
  }

  /** Filtering a listing is order-preserving: it distributes over
      concatenation. */
  lemma {:induction false} BackupNamesAppend(a: seq<DirEntry>, b: seq<DirEntry>)
    ensures BackupNames(a + b) == BackupNames(a) + BackupNames(b)
  {
    if a != [] {
      assert (a + b)[0] == a[0] && (a + b)[1..] == a[1..] + b;
      BackupNamesCons(a + b);
      BackupNamesCons(a);
      BackupNamesAppend(a[1..], b);
      assert BackupNameOf(a[0]) + (BackupNames(a[1..]) + BackupNames(b))
        == (BackupNameOf(a[0]) + BackupNames(a[1..])) + BackupNames(b);
    } else {
      assert a + b == b;
    }
  }

  /** The file is listed in the data directory under a backup-like name. */
  predicate ListedAsBackup(f: string, home: string) {
    EntryName(f, DataDir(home)).Some? && IsBackupName(EntryName(f, DataDir(home)).value)
  }

  /** The backup names of the files in `order`, in that order: what a listing
      of the data directory filtered to backups holds. */
  function BackupsInOrder(order: seq<string>, home: string): seq<string> {
    if order == [] then []
    else
      var here := if ListedAsBackup(order[0], home) then [EntryName(order[0], DataDir(home)).value] else [];
      here + BackupsInOrder(order[1..], home)
  }

  /** Filtering the listing to backups keeps the files' visiting order and
      their multiplicity. */
  lemma {:induction false} BackupNamesOfListing(order: seq<string>, home: string)
    ensures BackupNames(Listing(order, DataDir(home))) == BackupsInOrder(order, home)
  {
    if order != [] {
      BackupNamesOfListing(order[1..], home);
      var rest := Listing(order[1..], DataDir(home));
      match EntryName(order[0], DataDir(home))
      case Some(n) =>
        var entries := [DirEntry(n, false)] + rest;
        assert Listing(order, DataDir(home)) == entries;
        BackupNamesCons(entries);
        assert entries[1..] == rest;
      case None =>
        assert Listing(order, DataDir(home)) == rest;
    }
  }

  /** `ListBackupsUsing` with the directory visited in `order`. */
  function ListBackups(fs: FS, order: seq<string>): (r: Result<seq<string>, StorageError>)
    requires Enumerates(order, fs.files)
    ensures "UserHomeDir" in fs.errors ==> r == Failure(FsFailure(fs.errors["UserHomeDir"]))
    ensures "UserHomeDir" !in fs.errors && "ReadDir" in fs.errors ==> r == Failure(FsFailure(fs.errors["ReadDir"]))
    ensures r.Success? <==> "UserHomeDir" !in fs.errors && "ReadDir" !in fs.errors
    ensures r.Success? ==> forall i :: 0 <= i < |r.value| ==>
      IsBackupName(r.value[i]) && exists f :: f in fs.files && EntryName(f, DataDir(fs.homeDir)) == Some(r.value[i])
    ensures r.Success? ==> forall f :: f in fs.files && ListedAsBackup(f, fs.homeDir) ==>
      EntryName(f, DataDir(fs.homeDir)).value in r.value
    ensures r.Success? ==> r.value == BackupsInOrder(order, fs.homeDir)
  {
    match UserHomeDir(fs)
    case Failure(e) => Failure(FsFailure(e))
    case Success(home) =>
      match ReadDir(fs, DataDir(home), order)
      case Failure(e) => Failure(FsFailure(e))
      case Success(entries) =>
        var names := BackupNames(entries);
        BackupNamesOfListing(order, home);
        assert forall f :: f in fs.files && EntryName(f, DataDir(home)).Some? ==>
          DirEntry(EntryName(f, DataDir(home)).value, false) in entries;
        Success(names)
  }

  /** A backup written under a separator-free stamp shows up in the listing. */
  lemma BackupIsListed(fs: FS, stamp: string, order: seq<string>)
    requires NoErrorsInjected(fs) && PrimaryPath(fs.homeDir) in fs.files
    requires '/' !in stamp && '\\' !in stamp
    requires Enumerates(order, CreateBackup(fs, stamp).fs.files)
    ensures ListBackups(CreateBackup(fs, stamp).fs, order).Success?
    ensures BackupName(stamp) in ListBackups(CreateBackup(fs, stamp).fs, order).value
  {
    var fs1 := CreateBackup(fs, stamp).fs;
    var name := BackupName(stamp);
    var path := BackupPath(fs.homeDir, stamp);
    BackupNameHasNoSeparator(stamp);
    EntryNameOfChild(DataDir(fs.homeDir), name);
    assert path == DataDir(fs.homeDir) + "/" + name;
    assert path in fs1.files && fs1.homeDir == fs.homeDir;
    assert ListedAsBackup(path, fs1.homeDir);
  }

  /** `RestoreFromBackupUsing`: overwrite the primary file with the bytes of
      the named backup, provided they decode as a store. The name is joined to
      the data directory as given. */
  function RestoreFromBackup(fs: FS, codec: Codec, name: string): (r: Outcome)
    ensures r.err.Some? ==> r.fs == fs
    ensures r.err.None? ==> OnlyFileChanged(fs, r.fs, PrimaryPath(fs.homeDir))
    ensures r.err.None? ==> var bp := Join(DataDir(fs.homeDir), name);
      && bp in fs.files && codec.unmarshal(fs.files[bp]).Success?
      && PrimaryPath(fs.homeDir) in r.fs.files && r.fs.files[PrimaryPath(fs.homeDir)] == fs.files[bp]
    ensures "UserHomeDir" !in fs.errors && Stat(fs, Join(DataDir(fs.homeDir), name)) == Failure(ErrNotExist) ==>
      r == Outcome(fs, Some(BackupNotFound(name)))
    ensures "UserHomeDir" in fs.errors ==> r == Outcome(fs, Some(FsFailure(fs.errors["UserHomeDir"])))
    ensures var bp := Join(DataDir(fs.homeDir), name); var read := ReadFile(fs, bp);
      "UserHomeDir" !in fs.errors && Stat(fs, bp) != Failure(ErrNotExist) && read.Failure? ==>
      r == Outcome(fs, Some(BackupUnreadable(read.error)))
    ensures var bp := Join(DataDir(fs.homeDir), name); var read := ReadFile(fs, bp);
      "UserHomeDir" !in fs.errors && Stat(fs, bp) != Failure(ErrNotExist) && read.Success?
      && codec.unmarshal(read.value).Failure? ==>
      r == Outcome(fs, Some(BackupCorrupted(codec.unmarshal(read.value).error)))
    ensures var bp := Join(DataDir(fs.homeDir), name); var read := ReadFile(fs, bp);
      "UserHomeDir" !in fs.errors && Stat(fs, bp) != Failure(ErrNotExist) && read.Success?
      && codec.unmarshal(read.value).Success? && "WriteFile" in fs.errors ==>
      r == Outcome(fs, Some(RestoreWriteFailed(fs.errors["WriteFile"])))
    ensures var bp := Join(DataDir(fs.homeDir), name); var read := ReadFile(fs, bp);
      "UserHomeDir" !in fs.errors && Stat(fs, bp) != Failure(ErrNotExist) && read.Success?
      && codec.unmarshal(read.value).Success? && "WriteFile" !in fs.errors ==>
      r == Outcome(fs.(files := fs.files[PrimaryPath(fs.homeDir) := read.value]), None)
    ensures r.err.Some? && r.err.value.RestoreWriteFailed? ==> "WriteFile" in fs.errors
  {
    match UserHomeDir(fs)
    case Failure(e) => Outcome(fs, Some(FsFailure(e)))
    case Success(home) =>
      var dir := DataDir(home);
      var bp := Join(dir, name);
      var primary := Join(dir, PrimaryName);
      var st := Stat(fs, bp);
      if st.Failure? && IsNotExist(st.error) then Outcome(fs, Some(BackupNotFound(name)))
      else
        match ReadFile(fs, bp)
        case Failure(e) => Outcome(fs, Some(BackupUnreadable(e)))
        case Success(data) =>
          match codec.unmarshal(data)
          case Failure(reason) => Outcome(fs, Some(BackupCorrupted(reason)))
          case Success(_) =>
            var w := WriteFile(fs, primary, data);
            if w.err.Some? then Outcome(fs, Some(RestoreWriteFailed(w.err.value)))
            else Outcome(w.fs, None)
  }

  /** A backup that is present and decodes restores when nothing is
      injected: the primary file then holds the backup's bytes. */
  lemma RestoreValidBackup(fs: FS, codec: Codec, name: string)
    requires NoErrorsInjected(fs)
    requires Join(DataDir(fs.homeDir), name) in fs.files
    requires codec.unmarshal(fs.files[Join(DataDir(fs.homeDir), name)]).Success?
    ensures var r := RestoreFromBackup(fs, codec, name);
      r.err.None? && r.fs.files[PrimaryPath(fs.homeDir)] == fs.files[Join(DataDir(fs.homeDir), name)]
  {
  }

  /** Taking a backup, then overwriting the primary file, then restoring that
      backup brings the primary's original bytes back. */
  lemma BackupRestoreRoundTrip(fs: FS, codec: Codec, stamp: string, later: Bytes)
    requires NoErrorsInjected(fs) && PrimaryPath(fs.homeDir) in fs.files
    requires codec.unmarshal(fs.files[PrimaryPath(fs.homeDir)]).Success?
    ensures var fs1 := CreateBackup(fs, stamp).fs;
      var fs2 := WriteFile(fs1, PrimaryPath(fs.homeDir), later).fs;
      var r := RestoreFromBackup(fs2, codec, BackupName(stamp));
      r.err.None? && r.fs.files[PrimaryPath(fs.homeDir)] == fs.files[PrimaryPath(fs.homeDir)]
  {
    BackupPathIsNotPrimary(fs.homeDir, stamp);
  }
}

=== FILE: codec.dfy ===
/** The JSON encoding of a store (`encoding/json` on the `tickets` and
    `next_id` fields), taken as a pair of functions the model is given rather
    than a verified codec. */
module Codec {
  import opened Wrappers
  import opened MockFs
  import opened TicketStore

  /** `marshal` is `json.MarshalIndent`, `unmarshal` is `json.Unmarshal` into
      a fresh store; each failure carries the library's error text. */
  datatype Codec = Codec(marshal: Store -> Result<Bytes, string>, unmarshal: Bytes -> Result<Store, string>)

  /** The codec decodes what it encoded for this particular store. */
  predicate RoundTripsOn(codec: Codec, s: Store) {
    codec.marshal(s).Success? && codec.unmarshal(codec.marshal(s).value) == Success(s)
  }
}

=== FILE: engine.dfy ===
/** The store together with the file system it backs up to: every mutation
    first attempts a backup, and a failed backup only prints a warning. */
module Engine {
  import opened Wrappers
  import opened MockFs
  import opened Tickets
  import opened TicketStore
  import opened Paths
  import opened Backups

  /** One reading of the clock: the instant a ticket records and the same
      instant formatted as a backup stamp. */
  datatype Clock = Clock(instant: Timestamp, stamp: string)

  datatype Engine = Engine(store: Store, fs: FS)

  /** The primary file is the same in both file systems (present in both with
      the same bytes, or absent from both). */
  predicate SamePrimary(a: FS, b: FS) {
    && a.homeDir == b.homeDir
    && (PrimaryPath(a.homeDir) in a.files <==> PrimaryPath(a.homeDir) in b.files)
    && (PrimaryPath(a.homeDir) in a.files ==> a.files[PrimaryPath(a.homeDir)] == b.files[PrimaryPath(a.homeDir)])
  }

  /** `AddTicket`: back up, then add whatever the backup's outcome. */
  function AddTicket(e: Engine, title: string, url: string, clock: Clock): (r: Engine)
    ensures r.store == Add(e.store, title, url, clock.instant)
    ensures SamePrimary(e.fs, r.fs)
    ensures r.fs == e.fs || OnlyFileChanged(e.fs, r.fs, BackupPath(e.fs.homeDir, clock.stamp))
    ensures r.fs == CreateBackup(e.fs, clock.stamp).fs
    ensures NoErrorsInjected(e.fs) && PrimaryPath(e.fs.homeDir) in e.fs.files ==>
      HoldsPrimaryCopy(r.fs, BackupPath(e.fs.homeDir, clock.stamp))
  {
    BackupLeavesPrimary(e.fs, clock.stamp);
    BackupWritesCopy(e.fs, clock.stamp);
    Engine(Add(e.store, title, url, clock.instant), CreateBackup(e.fs, clock.stamp).fs)
  }

  datatype EngineDeletion = EngineDeletion(engine: Engine, deleted: bool)

  /** `DeleteTicket`: back up, then delete whatever the backup's outcome. */
  function DeleteTicket(e: Engine, id: int, clock: Clock): (r: EngineDeletion)
    ensures r.engine.store == Delete(e.store, id).store && r.deleted == Delete(e.store, id).deleted
    ensures SamePrimary(e.fs, r.engine.fs)
    ensures r.engine.fs == e.fs || OnlyFileChanged(e.fs, r.engine.fs, BackupPath(e.fs.homeDir, clock.stamp))
    ensures r.engine.fs == CreateBackup(e.fs, clock.stamp).fs
    ensures NoErrorsInjected(e.fs) && PrimaryPath(e.fs.homeDir) in e.fs.files ==>
      HoldsPrimaryCopy(r.engine.fs, BackupPath(e.fs.homeDir, clock.stamp))
  {
    BackupLeavesPrimary(e.fs, clock.stamp);
    BackupWritesCopy(e.fs, clock.stamp);
    var d := Delete(e.store, id);
    EngineDeletion(Engine(d.store, CreateBackup(e.fs, clock.stamp).fs), d.deleted)
  }

  /** The store after an add or a delete does not depend on the file system:
      neither a failing backup nor the files present change it. */
  lemma MutationIgnoresFileSystem(s: Store, fs1: FS, fs2: FS, title: string, url: string, id: int, clock: Clock)
    ensures AddTicket(Engine(s, fs1), title, url, clock).store == AddTicket(Engine(s, fs2), title, url, clock).store
    ensures DeleteTicket(Engine(s, fs1), id, clock).engine.store == DeleteTicket(Engine(s, fs2), id, clock).engine.store
    ensures DeleteTicket(Engine(s, fs1), id, clock).deleted == DeleteTicket(Engine(s, fs2), id, clock).deleted
  {
  }
}

=== FILE: go_strings.dfy ===
/** The parts of Go's `strings`, `unicode` and `fmt` packages the ticket engine
    relies on, over strings of Unicode characters. */
module GoStrings {
  import opened Wrappers
  import opened Scan

  /** `unicode.IsSpace`: the Latin-1 spaces plus the other Unicode White_Space characters. */
  predicate IsSpace(c: char) {
    var n := c as int;
    || c == '\t' || c == '\n' || n == 0x0B || n == 0x0C || c == '\r' || c == ' '
    || n == 0x85 || n == 0xA0 || n == 0x1680 || (0x2000 <= n <= 0x200A)
    || n == 0x2028 || n == 0x2029 || n == 0x202F || n == 0x205F || n == 0x3000
  }

  /** `\d` in Go's regexp syntax: ASCII digits only. */
  predicate IsDigit(c: char) {
    '0' <= c <= '9'
  }

  /** `[A-Z]` */
  predicate IsUpper(c: char) {
    'A' <= c <= 'Z'
  }

  predicate AllDigits(s: string) {
    forall i :: 0 <= i < |s| ==> IsDigit(s[i])
  }

  /** The end of the run of spaces starting at `k`. */
  function SpaceRunEnd(s: string, k: nat): (j: nat)
    requires k <= |s|
    ensures k <= j <= |s|
    ensures forall m :: k <= m < j ==> IsSpace(s[m])
    ensures j == |s| || !IsSpace(s[j])
    decreases |s| - k
  {
    if k < |s| && IsSpace(s[k]) then SpaceRunEnd(s, k + 1) else k
  }

  /** The start of the run of spaces ending at `k`, not going below `lo`. */
  function SpaceRunStart(s: string, lo: nat, k: nat): (j: nat)
    requires lo <= k <= |s|
    ensures lo <= j <= k
    ensures forall m :: j <= m < k ==> IsSpace(s[m])
    ensures j == lo || !IsSpace(s[j - 1])
    decreases k - lo
  {
    if lo < k && IsSpace(s[k - 1]) then SpaceRunStart(s, lo, k - 1) else k
  }

  /** Where `strings.TrimSpace` starts and stops keeping characters. */
  function TrimStart(s: string): nat
    ensures TrimStart(s) <= |s|
  {
    SpaceRunEnd(s, 0)
  }

  function TrimStop(s: string): (stop: nat)
    ensures TrimStart(s) <= stop <= |s|
  {
    SpaceRunStart(s, TrimStart(s), |s|)
  }

  /** `strings.TrimSpace`: drop leading and trailing white space. */
  function TrimSpace(s: string): (r: string)
    ensures r == s[TrimStart(s)..TrimStop(s)]
    ensures forall i :: 0 <= i < TrimStart(s) ==> IsSpace(s[i])
    ensures forall i :: TrimStop(s) <= i < |s| ==> IsSpace(s[i])
    ensures r != [] ==> !IsSpace(r[0]) && !IsSpace(r[|r| - 1])
    ensures r == [] <==> forall i :: 0 <= i < |s| ==> IsSpace(s[i])
  {
    s[TrimStart(s)..TrimStop(s)]
  }

  /** A string that neither starts nor ends with a space is its own trim. */
  lemma TrimSpaceOfTrimmed(s: string)
    requires s != [] ==> !IsSpace(s[0]) && !IsSpace(s[|s| - 1])
    ensures TrimSpace(s) == s
  {
    if s != [] {
      assert TrimStart(s) == 0;
      assert TrimStop(s) == |s|;
    }
  }

  /** `strings.TrimSpace` is idempotent. */
  lemma TrimSpaceIdempotent(s: string)
    ensures TrimSpace(TrimSpace(s)) == TrimSpace(s)
  {
    TrimSpaceOfTrimmed(TrimSpace(s));
  }

  predicate OccursAt(s: string, sub: string, m: nat) {
    m + |sub| <= |s| && s[m..m + |sub|] == sub
  }

  /** `strings.Index`: the first occurrence of `sub` in `s`. */
  function IndexOf(s: string, sub: string): (r: Option<nat>)
    ensures r.Some? ==> OccursAt(s, sub, r.value)
    ensures r.Some? ==> forall m: nat :: m < r.value ==> !OccursAt(s, sub, m)
    ensures r.None? ==> forall m: nat :: !OccursAt(s, sub, m)
  {
    var occurs := (m: nat) => OccursAt(s, sub, m);
    assert forall m: nat :: occurs(m) == OccursAt(s, sub, m);
    FirstWhere(0, |s| + 1, occurs)
  }

  /** An occurrence with none before it is the one `strings.Index` finds. */
  lemma IndexOfLeftmost(s: string, sub: string, v: nat)
    requires OccursAt(s, sub, v) && forall m: nat :: m < v ==> !OccursAt(s, sub, m)
    ensures IndexOf(s, sub) == Some(v)
  {
    var r := IndexOf(s, sub);
    assert r.Some?;
    assert !(r.value < v) && !(v < r.value);
  }

  /** `strings.Contains` */
  predicate Contains(s: string, sub: string) {
    IndexOf(s, sub).Some?
  }

  /** `strings.SplitN(s, sep, 2)`: split around the first occurrence of `sep`;
      an empty `sep` splits off the first character. */
  function SplitN2(s: string, sep: string): (parts: seq<string>)
    ensures sep != [] && IndexOf(s, sep).None? ==> parts == [s]
    ensures sep != [] && IndexOf(s, sep).Some? ==>
      |parts| == 2 && parts[0] + sep + parts[1] == s && IndexOf(s, sep) == Some(|parts[0]|)
  {
    if sep == [] then
      if |s| == 0 then [] else if |s| == 1 then [s] else [s[..1], s[1..]]
    else
      match IndexOf(s, sep)
      case None => [s]
      case Some(m) =>
        assert s[..m] + sep + s[m + |sep|..] == s by {
          assert s[m..m + |sep|] == sep;
          assert s == s[..m] + s[m..m + |sep|] + s[m + |sep|..];
        }
        [s[..m], s[m + |sep|..]]
  }

  predicate HasPrefix(s: string, prefix: string) {
    |prefix| <= |s| && s[..|prefix|] == prefix
  }

  predicate HasSuffix(s: string, suffix: string) {
    |suffix| <= |s| && s[|s| - |suffix|..] == suffix
  }

  /** `strings.TrimPrefix`: drop `prefix` once if `s` starts with it. */
  function TrimPrefix(s: string, prefix: string): (r: string)
    ensures HasPrefix(s, prefix) ==> prefix + r == s
    ensures !HasPrefix(s, prefix) ==> r == s
  {
    if HasPrefix(s, prefix) then
      assert s == s[..|prefix|] + s[|prefix|..];
      s[|prefix|..]
    else s
  }

  function LowerChar(c: char): char {
    if IsUpper(c) then (c as int + 32) as char else c
  }

  /** `strings.ToLower`, restricted to the ASCII letters. */
  function ToLower(s: string): (r: string)
    ensures |r| == |s|
    ensures forall i :: 0 <= i < |s| ==> r[i] == LowerChar(s[i])
  {
    seq(|s|, i requires 0 <= i < |s| => LowerChar(s[i]))
  }

  lemma ToLowerIdempotent(s: string)
    ensures ToLower(ToLower(s)) == ToLower(s)
  {
  }

  function DigitChar(d: nat): (c: char)
    requires d < 10
    ensures IsDigit(c)
  {
    ('0' as int + d) as char
  }

  function DigitValue(c: char): nat
    requires IsDigit(c)
  {
    c as int - '0' as int
  }

  /** `%d` of a non-negative number: its decimal digits, most significant first. */
  function Decimal(n: nat): (r: string)
    ensures r != [] && AllDigits(r)
    ensures |r| == 1 <==> n < 10
  {
    if n < 10 then [DigitChar(n)] else Decimal(n / 10) + [DigitChar(n % 10)]
  }

  function Pow10(e: nat): nat {
    if e == 0 then 1 else 10 * Pow10(e - 1)
  }

  /** The number a string of decimal digits denotes. */
  function DecimalValue(s: string): nat
    requires AllDigits(s)
  {
    if s == [] then 0 else DigitValue(s[0]) * Pow10(|s| - 1) + DecimalValue(s[1..])
  }

  lemma {:induction false} DecimalValueSnoc(s: string, c: char)
    requires AllDigits(s) && IsDigit(c)
    ensures AllDigits(s + [c])
    ensures DecimalValue(s + [c]) == 10 * DecimalValue(s) + DigitValue(c)
  {
    if s != [] {
      var t := s + [c];
      assert t[1..] == s[1..] + [c];
      DecimalValueSnoc(s[1..], c);
      var d := DigitValue(s[0]);
      var p := Pow10(|s| - 1);
      assert DecimalValue(t) == d * Pow10(|s|) + DecimalValue(t[1..]);
      assert DecimalValue(s) == d * p + DecimalValue(s[1..]);
      ShiftDigit(d, p, DecimalValue(s[1..]), DecimalValue(t[1..]), DigitValue(c));
    }
  }

  /** Appending a digit multiplies the leading digit's weight by ten. */
  lemma ShiftDigit(d: int, p: int, rest: int, restSnoc: int, c: int)
    requires restSnoc == 10 * rest + c
    ensures d * (10 * p) + restSnoc == 10 * (d * p + rest) + c
  {
  }

  /** Reading back what `%d` printed gives the number. */
  lemma {:induction false} DecimalRoundTrip(n: nat)
    ensures DecimalValue(Decimal(n)) == n
  {
    if n >= 10 {
      DecimalRoundTrip(n / 10);
      DecimalValueSnoc(Decimal(n / 10), DigitChar(n % 10));
    }
  }

  function Zeros(k: nat): (r: string)
    ensures |r| == k && forall i :: 0 <= i < k ==> r[i] == '0'
  {
    seq(k, _ => '0')
  }

  /** Left-pad a digit string with zeros up to `width`. */
  function ZeroPad(digits: string, width: nat): (r: string)
    ensures |r| == if |digits| < width then width else |digits|
  {
    if |digits| < width then Zeros(width - |digits|) + digits else digits
  }

  lemma {:induction false} LeadingZerosValue(k: nat, s: string)
    requires AllDigits(s)
    ensures AllDigits(Zeros(k) + s)
    ensures DecimalValue(Zeros(k) + s) == DecimalValue(s)
  {
    if k > 0 {
      var t := Zeros(k) + s;
      assert t[0] == '0';
      assert t[1..] == Zeros(k - 1) + s;
      LeadingZerosValue(k - 1, s);
      assert DecimalValue(t) == DigitValue(t[0]) * Pow10(|t| - 1) + DecimalValue(t[1..]);
    } else {
      assert Zeros(k) + s == s;
    }
  }

  function Max(a: int, b: int): int {
    if a < b then b else a
  }

  /** `fmt.Sprintf("%d", n)` */
  function FormatInt(n: int): string {
    if n < 0 then "-" + Decimal(-n) else Decimal(n)
  }

  /** `fmt.Sprintf("%0<width>d", n)`: for a negative number the sign takes
      one column of the width and the zeros go between the sign and the digits. */
  function FormatZeroPadded(n: int, width: nat): (r: string)
    ensures n >= 0 ==> |r| == Max(width, |Decimal(n)|)
    ensures n < 0 ==> |r| == Max(width, |Decimal(-n)| + 1)
    ensures n >= 0 ==> AllDigits(r) && DecimalValue(r) == n
    ensures n < 0 ==> |r| > 0 && r[0] == '-' && AllDigits(r[1..]) && DecimalValue(r[1..]) == -n
  {
    if n < 0 then
      var w := if width > 0 then width - 1 else 0;
      ZeroPadWithValue(-n, w);
      "-" + ZeroPad(Decimal(-n), w)
    else
      ZeroPadWithValue(n, width);
      ZeroPad(Decimal(n), width)
  }

  lemma ZeroPadWithValue(n: nat, width: nat)
    ensures AllDigits(ZeroPad(Decimal(n), width))
    ensures DecimalValue(ZeroPad(Decimal(n), width)) == n
  {
    DecimalRoundTrip(n);
    if |Decimal(n)| < width {
      LeadingZerosValue(width - |Decimal(n)|, Decimal(n));
    }
  }
}

=== FILE: importer.dfy ===
/** `ImportFromFile`: bulk import of `<url> - <title>` lines, one ticket per
    new URL, with counts and line-numbered error messages. */
module Importer {
  import opened Wrappers
  import opened GoStrings
  import opened MockFs
  import opened Tickets
  import opened TicketStore
  import opened Paths
  import opened Backups
  import opened Engine

  /** How one line is classified. */
  datatype Parsed = Blank | Malformed | EmptyField | Entry(url: string, title: string)

  /** Trim the line, split it once at the first " - ", trim both halves. */
  function ParseLine(raw: string): (p: Parsed)
    ensures p.Blank? <==> TrimSpace(raw) == ""
    ensures p.Malformed? <==> TrimSpace(raw) != "" && !Contains(TrimSpace(raw), " - ")
    ensures p.Entry? ==> p.url != "" && p.title != "" && TrimSpace(p.url) == p.url && TrimSpace(p.title) == p.title
    ensures IndexOf(TrimSpace(raw), " - ").Some? ==>
      var line := TrimSpace(raw);
      var m := IndexOf(line, " - ").value;
      && m + 3 <= |line|
      && var url := TrimSpace(line[..m]);
      && var title := TrimSpace(line[m + 3..]);
      && p == if url == "" || title == "" then EmptyField else Entry(url, title)
  {
    var line := TrimSpace(raw);
    if line == "" then Blank
    else
      var parts := SplitN2(line, " - ");
      if |parts| != 2 then Malformed
      else
        assert line[..|parts[0]|] == parts[0] && line[|parts[0]| + 3..] == parts[1] by {
          assert line == parts[0] + " - " + parts[1];
        }
        var url := TrimSpace(parts[0]);
        var title := TrimSpace(parts[1]);
        TrimSpaceIdempotent(parts[0]);
        TrimSpaceIdempotent(parts[1]);
        if url == "" || title == "" then EmptyField else Entry(url, title)
  }

  /** The "empty URL or title" branch never fires: the line is trimmed before
      it is split, so the text before the first " - " starts with a
      non-space character and the text after it ends with one. */
  lemma {:induction false} NeverEmptyField(raw: string)
    ensures !ParseLine(raw).EmptyField?
  {
    var line := TrimSpace(raw);
    if line != "" {
      var parts := SplitN2(line, " - ");
      if |parts| == 2 {
        assert parts[0] + " - " + parts[1] == line;
        if parts[0] != "" {
          assert parts[0][0] == line[0];
        }
        if parts[1] != "" {
          assert parts[1][|parts[1]| - 1] == line[|line| - 1];
        }
      }
    }
  }

  /** Every line without a separator is reported as a format error; any line
      holding one with text on both sides is an entry. */
  lemma EntryOrMalformed(raw: string)
    ensures TrimSpace(raw) != "" ==> ParseLine(raw).Malformed? || ParseLine(raw).Entry?
  {
    NeverEmptyField(raw);
  }

  /** A line written as `<url> - <title>` reads back as that URL and title:
      the URL is the text before the first " - " and the title is all of the
      rest. The URL must not let an earlier " - " begin, not even one that
      overlaps its last characters, hence the check on `url + " "`. */
  lemma ParseEntryLine(url: string, title: string)
    requires url != "" && title != "" && TrimSpace(url) == url && TrimSpace(title) == title
    requires !Contains(url + " ", " - ")
    ensures ParseLine(url + " - " + title) == Entry(url, title)
  {
    var line := url + " - " + title;
    EntryLineShape(url, title);
    assert SplitN2(line, " - ") == [url, title];
  }

  /** The written line is already trimmed, and its first " - " is the one
      written after the URL. */
  lemma EntryLineShape(url: string, title: string)
    requires url != "" && title != "" && TrimSpace(url) == url && TrimSpace(title) == title
    requires !Contains(url + " ", " - ")
    ensures TrimSpace(url + " - " + title) == url + " - " + title
    ensures IndexOf(url + " - " + title, " - ") == Some(|url|)
    ensures (url + " - " + title)[..|url|] == url && (url + " - " + title)[|url| + 3..] == title
  {
    var line := url + " - " + title;
    var v := |url|;
    assert line[0] == url[0] && line[|line| - 1] == title[|title| - 1];
    TrimSpaceOfTrimmed(line);
    assert IsSpace(' ');
    SeparatorAfterPrefix(url, title);
    IndexOfLeftmost(line, " - ", v);
    assert line[..v] == url && line[v + 3..] == title;
  }

  /** When `url + " "` holds no " - " and `url` does not end in a space, the
      first " - " of `url + " - " + title` is the written one. */
  lemma SeparatorAfterPrefix(url: string, title: string)
    requires url != [] && url[|url| - 1] != ' '
    requires forall m: nat :: !OccursAt(url + " ", " - ", m)
    ensures OccursAt(url + " - " + title, " - ", |url|)
    ensures forall m: nat :: m < |url| ==> !OccursAt(url + " - " + title, " - ", m)
  {
    var line := url + " - " + title;
    var u1 := url + " ";
    var v := |url|;
    assert line[v..v + 3] == " - ";
    forall m: nat | m < v
      ensures !OccursAt(line, " - ", m)
    {
      if m + 3 <= v + 1 {
        assert line[m..m + 3] == u1[m..m + 3];
        assert !OccursAt(u1, " - ", m);
      } else {
        assert line[m..m + 3][0] == line[m] == url[v - 1];
      }
    }
  }

  function MalformedMessage(lineNumber: nat): string {
    "Строка " + FormatInt(lineNumber) + ": неверный формат"
  }

  function EmptyFieldMessage(lineNumber: nat): string {
    "Строка " + FormatInt(lineNumber) + ": пустая ссылка или название"
  }

  datatype ImportResult = ImportResult(added: nat, duplicates: nat, errors: nat, errorLines: seq<string>)

  const NoImports: ImportResult := ImportResult(0, 0, 0, [])
  /** Every line of the file, classified. */
  function Classify(lines: seq<string>): (ps: seq<Parsed>)
    ensures |ps| == |lines|
    ensures forall k :: 0 <= k < |lines| ==> ps[k] == ParseLine(lines[k])
  {
    seq(|lines|, k requires 0 <= k < |lines| => ParseLine(lines[k]))
  }

  /** The store and the counts while the lines are read; the backups each
      added ticket takes are tracked apart by `BackupTrail`. */
  datatype ImportState = ImportState(store: Store, result: ImportResult)

  /** The line adds a ticket: an entry whose URL the store does not hold. */
  predicate AddsTicket(store: Store, p: Parsed) {
    p.Entry? && !HasTicketWithURL(store, p.url)
  }

  /** Handle the line numbered `lineNumber` (from 1), classified as `p`. A
      URL is a duplicate exactly when the store holds it at that moment,
      which includes URLs added by earlier lines of the same file. */
  function Step(st: ImportState, lineNumber: nat, p: Parsed, at: Timestamp): ImportState {
    var res := st.result;
    match p
    case Blank => st
    case Malformed =>
      st.(result := res.(errors := res.errors + 1, errorLines := res.errorLines + [MalformedMessage(lineNumber)]))
    case EmptyField =>
      st.(result := res.(errors := res.errors + 1, errorLines := res.errorLines + [EmptyFieldMessage(lineNumber)]))
    case Entry(url, title) =>
      if HasTicketWithURL(st.store, url) then st.(result := res.(duplicates := res.duplicates + 1))
      else ImportState(Add(st.store, title, url, at), res.(added := res.added + 1))
  }

  /** The state after the first `n` classified lines; line k (from 1) is
      read at the clock reading `clockAt(k)`. */
  function ImportPrefix(st: ImportState, ps: seq<Parsed>, n: nat, clockAt: nat -> Clock): ImportState
    requires n <= |ps|
  {
    if n == 0 then st
    else Step(ImportPrefix(st, ps, n - 1, clockAt), n, ps[n - 1], clockAt(n).instant)
  }

  /** The file system after the backups `AddTicket` takes for every ticket
      the first `n` lines add, each stamped with its line's clock reading. */
  function BackupTrail(fs: FS, start: Store, ps: seq<Parsed>, n: nat, clockAt: nat -> Clock): FS
    requires n <= |ps|
  {
    if n == 0 then fs
    else
      var before := BackupTrail(fs, start, ps, n - 1, clockAt);
      var st := ImportPrefix(ImportState(start, NoImports), ps, n - 1, clockAt);
      if AddsTicket(st.store, ps[n - 1]) then CreateBackup(before, clockAt(n).stamp).fs else before
  }

  /** However many backups the import takes, the primary file is untouched. */
  lemma {:induction false} TrailKeepsPrimary(fs: FS, start: Store, ps: seq<Parsed>, n: nat, clockAt: nat -> Clock)
    requires n <= |ps|
    ensures SamePrimary(fs, BackupTrail(fs, start, ps, n, clockAt))
  {
    if n > 0 {
      var before := BackupTrail(fs, start, ps, n - 1, clockAt);
      TrailKeepsPrimary(fs, start, ps, n - 1, clockAt);
      BackupLeavesPrimary(before, clockAt(n).stamp);
    }
  }

  /** Line `k` (from 1) adds a ticket, given what the earlier lines did. */
  predicate AddsAt(start: Store, ps: seq<Parsed>, k: nat, clockAt: nat -> Clock)
    requires 1 <= k <= |ps|
  {
    AddsTicket(ImportPrefix(ImportState(start, NoImports), ps, k - 1, clockAt).store, ps[k - 1])
  }

  /** `t` still has nothing injected, and the same home and primary file as `fs`. */
  predicate SameCleanPrimary(fs: FS, t: FS) {
    && NoErrorsInjected(t) && t.homeDir == fs.homeDir
    && PrimaryPath(fs.homeDir) in fs.files && PrimaryPath(fs.homeDir) in t.files
    && t.files[PrimaryPath(fs.homeDir)] == fs.files[PrimaryPath(fs.homeDir)]
  }

  /** `t` is as `SameCleanPrimary` says, and holds every copy of the primary that `fs` held. */
  ghost predicate CopiesKept(fs: FS, t: FS) {
    && SameCleanPrimary(fs, t)
    && forall p :: HoldsPrimaryCopy(fs, p) ==> HoldsPrimaryCopy(t, p)
  }

  /** Each of the first `n` lines that adds a ticket has its copy in `t`. */
  predicate CopiesForAdds(t: FS, home: string, start: Store, ps: seq<Parsed>, n: nat, clockAt: nat -> Clock)
    requires n <= |ps|
  {
    forall k :: 1 <= k <= n && AddsAt(start, ps, k, clockAt) ==> HoldsPrimaryCopy(t, BackupPath(home, clockAt(k).stamp))
  }

  /** With nothing injected and a primary file present, every line that adds
      a ticket leaves a copy of the primary under that line's stamp, and the
      copies already there stay. */
  lemma TrailWritesCopies(fs: FS, start: Store, ps: seq<Parsed>, n: nat, clockAt: nat -> Clock)
    requires n <= |ps|
    requires NoErrorsInjected(fs) && PrimaryPath(fs.homeDir) in fs.files
    ensures CopiesKept(fs, BackupTrail(fs, start, ps, n, clockAt))
    ensures CopiesForAdds(BackupTrail(fs, start, ps, n, clockAt), fs.homeDir, start, ps, n, clockAt)
  {
    var t := BackupTrail(fs, start, ps, n, clockAt);
    TrailStaysClean(fs, start, ps, n, clockAt);
    forall p | HoldsPrimaryCopy(fs, p) ensures HoldsPrimaryCopy(t, p) {
      TrailKeepsCopy(fs, start, ps, n, clockAt, p);
    }
    forall k | 1 <= k <= n && AddsAt(start, ps, k, clockAt)
      ensures HoldsPrimaryCopy(t, BackupPath(fs.homeDir, clockAt(k).stamp))
    {
      TrailCopyForLine(fs, start, ps, n, k, clockAt);
    }
  }

  /** Backups never inject errors, move home or touch the primary file. */
  lemma {:induction false} TrailStaysClean(fs: FS, start: Store, ps: seq<Parsed>, n: nat, clockAt: nat -> Clock)
    requires n <= |ps|
    requires NoErrorsInjected(fs) && PrimaryPath(fs.homeDir) in fs.files
    ensures SameCleanPrimary(fs, BackupTrail(fs, start, ps, n, clockAt))
  {
    if n > 0 {
      var before := BackupTrail(fs, start, ps, n - 1, clockAt);
      TrailStaysClean(fs, start, ps, n - 1, clockAt);
      BackupWritesCopy(before, clockAt(n).stamp);
    }
  }

  /** Line `n` of the trail keeps every copy of the primary already written. */
  lemma TrailStepKeeps(fs: FS, start: Store, ps: seq<Parsed>, n: nat, clockAt: nat -> Clock, p: string)
    requires 1 <= n <= |ps|
    requires NoErrorsInjected(fs) && PrimaryPath(fs.homeDir) in fs.files
    requires HoldsPrimaryCopy(BackupTrail(fs, start, ps, n - 1, clockAt), p)
    ensures HoldsPrimaryCopy(BackupTrail(fs, start, ps, n, clockAt), p)
  {
  }

  /** A copy of the primary present before the import is still there after `n` lines. */
  lemma {:induction false} TrailKeepsCopy(fs: FS, start: Store, ps: seq<Parsed>, n: nat, clockAt: nat -> Clock, p: string)
    requires n <= |ps|
    requires NoErrorsInjected(fs) && PrimaryPath(fs.homeDir) in fs.files
    requires HoldsPrimaryCopy(fs, p)
    ensures HoldsPrimaryCopy(BackupTrail(fs, start, ps, n, clockAt), p)
  {
    if n > 0 {
      TrailKeepsCopy(fs, start, ps, n - 1, clockAt, p);
      TrailStepKeeps(fs, start, ps, n, clockAt, p);
    }
  }

  /** Line `k` adds a ticket, so after `n >= k` lines its backup holds the primary's bytes. */
  lemma {:induction false} TrailCopyForLine(fs: FS, start: Store, ps: seq<Parsed>, n: nat, k: nat, clockAt: nat -> Clock)
    requires 1 <= k <= n <= |ps|
    requires NoErrorsInjected(fs) && PrimaryPath(fs.homeDir) in fs.files
    requires AddsAt(start, ps, k, clockAt)
    ensures HoldsPrimaryCopy(BackupTrail(fs, start, ps, n, clockAt), BackupPath(fs.homeDir, clockAt(k).stamp))
  {
    if n == k {
      var before := BackupTrail(fs, start, ps, k - 1, clockAt);
      TrailStaysClean(fs, start, ps, k - 1, clockAt);
      BackupWritesCopy(before, clockAt(k).stamp);
      assert BackupTrail(fs, start, ps, k, clockAt) == CreateBackup(before, clockAt(k).stamp).fs;
    } else {
      TrailCopyForLine(fs, start, ps, n - 1, k, clockAt);
      TrailStepKeeps(fs, start, ps, n, clockAt, BackupPath(fs.homeDir, clockAt(k).stamp));
    }
  }

  /** An import first backs up under stamp 0, then once per added ticket: with
      nothing injected and a primary file present, all those copies are there
      at the end. */
  lemma ImportTrailWritesCopies(fs: FS, start: Store, ps: seq<Parsed>, clockAt: nat -> Clock)
    ensures NoErrorsInjected(fs) && PrimaryPath(fs.homeDir) in fs.files ==>
      var t := BackupTrail(CreateBackup(fs, clockAt(0).stamp).fs, start, ps, |ps|, clockAt);
      && HoldsPrimaryCopy(t, BackupPath(fs.homeDir, clockAt(0).stamp))
      && CopiesForAdds(t, fs.homeDir, start, ps, |ps|, clockAt)
  {
    BackupWritesCopy(fs, clockAt(0).stamp);
    if NoErrorsInjected(fs) && PrimaryPath(fs.homeDir) in fs.files {
      var fs0 := CreateBackup(fs, clockAt(0).stamp).fs;
      TrailWritesCopies(fs0, start, ps, |ps|, clockAt);
      assert HoldsPrimaryCopy(fs0, BackupPath(fs.homeDir, clockAt(0).stamp));
    }
  }

  // Reference definitions, stated line by line without the store.

  /** 1 for a line that is not blank after trimming, 0 for a blank one. */
  function NonBlankWeight(raw: string): nat {
    if |TrimSpace(raw)| == 0 then 0 else 1
  }

  /** The message for line `lineNumber` when its trimmed text is not empty
      and holds no " - ", and nothing otherwise. */
  function FormatError(raw: string, lineNumber: nat): seq<string> {
    var line := TrimSpace(raw);
    if line != "" && !Contains(line, " - ") then [MalformedMessage(lineNumber)] else []
  }

  /** How many of the first `n` lines are not blank after trimming. */
  function NonBlankCount(lines: seq<string>, n: nat): nat
    requires n <= |lines|
  {
    if n == 0 then 0 else NonBlankCount(lines, n - 1) + NonBlankWeight(lines[n - 1])
  }

  /** The format errors among the first `n` lines, in file order, each with
      its 1-based line number (blank lines counted). */
  function FormatErrors(lines: seq<string>, n: nat): seq<string>
    requires n <= |lines|
  {
    if n == 0 then [] else FormatErrors(lines, n - 1) + FormatError(lines[n - 1], n)
  }

  /** One of the first `n` lines is an entry for the URL `u`. */
  predicate EntryBefore(ps: seq<Parsed>, n: nat, u: string)
    requires n <= |ps|
  {
    exists j :: 0 <= j < n && ps[j].Entry? && ps[j].url == u
  }

  /** Line `k` (from 0) adds a ticket: it is an entry whose URL is neither in
      the store the import started from nor on any earlier entry line. */
  predicate IsAccepted(start: Store, ps: seq<Parsed>, k: nat)
    requires k < |ps|
  {
    ps[k].Entry? && !HasTicketWithURL(start, ps[k].url) && !EntryBefore(ps, k, ps[k].url)
  }

  /** The tickets the first `n` lines add, in file order, with consecutive
      ids from the starting counter. */
  function AcceptedTickets(start: Store, ps: seq<Parsed>, n: nat, clockAt: nat -> Clock): seq<Ticket>
    requires n <= |ps|
  {
    if n == 0 then []
    else
      var earlier := AcceptedTickets(start, ps, n - 1, clockAt);
      if IsAccepted(start, ps, n - 1) then
        earlier + [Ticket(start.nextId + |earlier|, ps[n - 1].title, ps[n - 1].url, clockAt(n).instant)]
      else earlier
  }

  lemma StepCounts(st: ImportState, lineNumber: nat, p: Parsed, at: Timestamp)
    ensures var r := Step(st, lineNumber, p, at).result;
      && r.added + r.duplicates + r.errors == st.result.added + st.result.duplicates + st.result.errors + ParsedWeight(p)
      && |r.errorLines| - r.errors == |st.result.errorLines| - st.result.errors
      && (!p.EmptyField? ==> r.errorLines == st.result.errorLines + ParsedError(p, lineNumber))
  {
  }

  function ParsedWeight(p: Parsed): nat {
    if p.Blank? then 0 else 1
  }

  function ParsedError(p: Parsed, lineNumber: nat): seq<string> {
    if p.Malformed? then [MalformedMessage(lineNumber)] else []
  }

  /** How many of the first `n` classified lines are not blank. */
  function NonBlankParsed(ps: seq<Parsed>, n: nat): nat
    requires n <= |ps|
  {
    if n == 0 then 0 else NonBlankParsed(ps, n - 1) + ParsedWeight(ps[n - 1])
  }

  /** The messages for the malformed lines among the first `n`, in order. */
  function MalformedMessages(ps: seq<Parsed>, n: nat): seq<string>
    requires n <= |ps|
  {
    if n == 0 then [] else MalformedMessages(ps, n - 1) + ParsedError(ps[n - 1], n)
  }

  /** The counts over classified lines, as long as none has an empty field. */
  lemma {:induction false} ImportCounts(start: Store, ps: seq<Parsed>, n: nat, clockAt: nat -> Clock)
    requires n <= |ps|
    requires forall k :: 0 <= k < n ==> !ps[k].EmptyField?
    ensures var r := ImportPrefix(ImportState(start, NoImports), ps, n, clockAt).result;
      && r.added + r.duplicates + r.errors == NonBlankParsed(ps, n)
      && |r.errorLines| == r.errors
      && r.errorLines == MalformedMessages(ps, n)
  {
    if n > 0 {
      ImportCounts(start, ps, n - 1, clockAt);
      var prev := ImportPrefix(ImportState(start, NoImports), ps, n - 1, clockAt);
      StepCounts(prev, n, ps[n - 1], clockAt(n).instant);
    }
  }

  /** The lines, each classified. */
  predicate ClassifiedAs(ps: seq<Parsed>, lines: seq<string>) {
    |ps| == |lines| && forall k {:trigger ParseLine(lines[k])} :: 0 <= k < |lines| ==> ps[k] == ParseLine(lines[k])
  }

  /** Classifying the lines agrees with the line-level count of non-blank lines. */
  lemma {:induction false} ClassifiedNonBlank(ps: seq<Parsed>, lines: seq<string>, n: nat)
    requires ClassifiedAs(ps, lines) && n <= |lines|
    ensures NonBlankParsed(ps, n) == NonBlankCount(lines, n)
  {
    if n > 0 {
      ClassifiedNonBlank(ps, lines, n - 1);
      BlankAt(ps, lines, n);
    }
  }

  /** Classifying the lines agrees with the line-level list of format errors. */
  lemma {:induction false} ClassifiedMalformed(ps: seq<Parsed>, lines: seq<string>, n: nat)
    requires ClassifiedAs(ps, lines) && n <= |lines|
    ensures MalformedMessages(ps, n) == FormatErrors(lines, n)
  {
    if n > 0 {
      ClassifiedMalformed(ps, lines, n - 1);
      MalformedAt(ps, lines, n);
      AppendBoth(MalformedMessages(ps, n - 1), FormatErrors(lines, n - 1), ParsedError(ps[n - 1], n), FormatError(lines[n - 1], n));
    }
  }

  lemma AppendBoth(a: seq<string>, b: seq<string>, c: seq<string>, d: seq<string>)
    requires a == b && c == d
    ensures a + c == b + d
  {
  }

  /** A line is classified blank exactly when it trims to nothing. */
  lemma BlankAt(ps: seq<Parsed>, lines: seq<string>, n: nat)
    requires ClassifiedAs(ps, lines) && 0 < n <= |lines|
    ensures ParsedWeight(ps[n - 1]) == NonBlankWeight(lines[n - 1])
  {
    assert ps[n - 1] == ParseLine(lines[n - 1]);
  }

  /** A line is classified malformed exactly when its trimmed text is not
      empty and holds no " - ". */
  lemma MalformedAt(ps: seq<Parsed>, lines: seq<string>, n: nat)
    requires ClassifiedAs(ps, lines) && 0 < n <= |lines|
    ensures ParsedError(ps[n - 1], n) == FormatError(lines[n - 1], n)
  {
    assert ps[n - 1] == ParseLine(lines[n - 1]);
  }

  /** No classified line of a file has an empty field. */
  lemma NoEmptyFields(lines: seq<string>)
    ensures forall k :: 0 <= k < |lines| ==> !Classify(lines)[k].EmptyField?
  {
    forall k | 0 <= k < |lines|
      ensures !Classify(lines)[k].EmptyField?
    {
      NeverEmptyField(lines[k]);
    }
  }

  /** Counts: every non-blank line is counted once as added, duplicate or
      error; there is one message per error, and the messages are exactly
      the format errors in file order. */
  lemma ImportAccounting(start: Store, lines: seq<string>, n: nat, clockAt: nat -> Clock)
    requires n <= |lines|
    ensures var r := ImportPrefix(ImportState(start, NoImports), Classify(lines), n, clockAt).result;
      && r.added + r.duplicates + r.errors == NonBlankCount(lines, n)
      && |r.errorLines| == r.errors
      && r.errorLines == FormatErrors(lines, n)
  {
    NoEmptyFields(lines);
    ImportCounts(start, Classify(lines), n, clockAt);
    ClassifiedNonBlank(Classify(lines), lines, n);
    ClassifiedMalformed(Classify(lines), lines, n);
  }

  /** One line adds a ticket exactly when it is an entry with a new URL. */
  lemma StepAppends(st: ImportState, lineNumber: nat, p: Parsed, at: Timestamp)
    ensures var r := Step(st, lineNumber, p, at);
      && (AddsTicket(st.store, p) ==>
            r.store == Add(st.store, p.title, p.url, at) && r.result.added == st.result.added + 1)
      && (!AddsTicket(st.store, p) ==> r.store == st.store && r.result.added == st.result.added)
  {
  }

  lemma EntryBeforeStep(ps: seq<Parsed>, n: nat, u: string)
    requires 0 < n <= |ps|
    ensures EntryBefore(ps, n, u) <==> EntryBefore(ps, n - 1, u) || (ps[n - 1].Entry? && ps[n - 1].url == u)
  {
    if EntryBefore(ps, n, u) && !EntryBefore(ps, n - 1, u) {
      var j :| 0 <= j < n && ps[j].Entry? && ps[j].url == u;
      assert j == n - 1;
    }
  }

  /** After the first `n` lines the store holds exactly the URLs it held
      before plus those of every entry line read. */
  lemma {:induction false} ImportUrls(start: Store, ps: seq<Parsed>, n: nat, clockAt: nat -> Clock, u: string)
    requires n <= |ps|
    ensures HasTicketWithURL(ImportPrefix(ImportState(start, NoImports), ps, n, clockAt).store, u)
      <==> HasTicketWithURL(start, u) || EntryBefore(ps, n, u)
  {
    if n > 0 {
      ImportUrls(start, ps, n - 1, clockAt, u);
      EntryBeforeStep(ps, n, u);
      var prev := ImportPrefix(ImportState(start, NoImports), ps, n - 1, clockAt);
      var p := ps[n - 1];
      var at := clockAt(n).instant;
      StepAppends(prev, n, p, at);
      if AddsTicket(prev.store, p) {
        HasUrlAfterAdd(prev.store, p.title, p.url, at, u);
      }
    }
  }

  /** The reference predicate agrees with the importer: line `k` adds a
      ticket exactly when it is accepted. */
  lemma AddsIffAccepted(start: Store, ps: seq<Parsed>, k: nat, clockAt: nat -> Clock)
    requires k < |ps|
    ensures AddsTicket(ImportPrefix(ImportState(start, NoImports), ps, k, clockAt).store, ps[k])
      <==> IsAccepted(start, ps, k)
  {
    if ps[k].Entry? {
      ImportUrls(start, ps, k, clockAt, ps[k].url);
    }
  }

  lemma AcceptedStep(start: Store, ps: seq<Parsed>, n: nat, clockAt: nat -> Clock)
    requires 0 < n <= |ps|
    ensures var earlier := AcceptedTickets(start, ps, n - 1, clockAt);
      AcceptedTickets(start, ps, n, clockAt) ==
        if IsAccepted(start, ps, n - 1) then
          earlier + [Ticket(start.nextId + |earlier|, ps[n - 1].title, ps[n - 1].url, clockAt(n).instant)]
        else earlier
  {
  }

  /** The store grows by exactly the accepted lines' tickets, in file order
      with consecutive ids, and the counter by their number. */
  lemma {:induction false} ImportAppendsAccepted(start: Store, ps: seq<Parsed>, n: nat, clockAt: nat -> Clock)
    requires n <= |ps|
    ensures var st := ImportPrefix(ImportState(start, NoImports), ps, n, clockAt);
      var acc := AcceptedTickets(start, ps, n, clockAt);
      && st.store.tickets == start.tickets + acc
      && st.store.nextId == start.nextId + |acc|
      && st.result.added == |acc|
  {
    if n > 0 {
      ImportAppendsAccepted(start, ps, n - 1, clockAt);
      var prev := ImportPrefix(ImportState(start, NoImports), ps, n - 1, clockAt);
      var at := clockAt(n).instant;
      assert ImportPrefix(ImportState(start, NoImports), ps, n, clockAt) == Step(prev, n, ps[n - 1], at);
      AddsIffAccepted(start, ps, n - 1, clockAt);
      AcceptedStep(start, ps, n, clockAt);
      AppendStep(start, prev, AcceptedTickets(start, ps, n - 1, clockAt), n, ps[n - 1], at);
    }
  }

  /** One line extends the appended tickets by its own ticket exactly when it
      adds one. */
  lemma AppendStep(start: Store, prev: ImportState, earlier: seq<Ticket>, lineNumber: nat, p: Parsed, at: Timestamp)
    requires prev.store.tickets == start.tickets + earlier
    requires prev.store.nextId == start.nextId + |earlier| && prev.result.added == |earlier|
    ensures var st := Step(prev, lineNumber, p, at);
      var acc := if AddsTicket(prev.store, p) then earlier + [Ticket(start.nextId + |earlier|, p.title, p.url, at)] else earlier;
      && st.store.tickets == start.tickets + acc
      && st.store.nextId == start.nextId + |acc|
      && st.result.added == |acc|
  {
    StepAppends(prev, lineNumber, p, at);
    if AddsTicket(prev.store, p) {
      assert (start.tickets + earlier) + [Ticket(prev.store.nextId, p.title, p.url, at)]
        == start.tickets + (earlier + [Ticket(start.nextId + |earlier|, p.title, p.url, at)]);
    }
  }

  /** One step keeps URLs distinct: it adds only a URL the store lacks. */
  lemma StepKeepsUrlsDistinct(st: ImportState, lineNumber: nat, p: Parsed, at: Timestamp)
    requires UrlsDistinct(st.store.tickets)
    ensures UrlsDistinct(Step(st, lineNumber, p, at).store.tickets)
  {
    if AddsTicket(st.store, p) {
      AddFreshUrlKeepsDistinct(st.store, p.title, p.url, at);
    }
  }

  /** Import never gives two tickets the same URL. */
  lemma {:induction false} ImportKeepsUrlsDistinct(start: Store, ps: seq<Parsed>, n: nat, clockAt: nat -> Clock)
    requires n <= |ps|
    ensures UrlsDistinct(start.tickets) ==>
      UrlsDistinct(ImportPrefix(ImportState(start, NoImports), ps, n, clockAt).store.tickets)
  {
    if n > 0 && UrlsDistinct(start.tickets) {
      ImportKeepsUrlsDistinct(start, ps, n - 1, clockAt);
      var prev := ImportPrefix(ImportState(start, NoImports), ps, n - 1, clockAt);
      StepKeepsUrlsDistinct(prev, n, ps[n - 1], clockAt(n).instant);
    }
  }

  /** Where the lines come from: a file `Open` could not open, or the lines a
      scanner read, with the error that stopped it early, if any. */
  datatype Source = Unopenable(openError: FsError) | Scanned(lines: seq<string>, readError: Option<FsError>)

  /** Why an import stopped: the file could not be opened, or reading it
      failed part-way. The messages are "не удалось открыть файл: " and
      "ошибка чтения файла: " followed by the cause. */
  datatype ImportError = OpenFailed(cause: FsError) | ReadFailed(cause: FsError)

  datatype ImportOutcome = ImportOutcome(engine: Engine, result: ImportResult, err: Option<ImportError>)

  /** `ImportFromFile`: back up (the reading `clockAt(0)`), then import every
      line read. A file that cannot be opened imports nothing; a read error
      keeps what was imported before it and is returned alongside. */
  function ImportFromFile(e: Engine, src: Source, clockAt: nat -> Clock): (r: ImportOutcome)
    ensures src.Unopenable? ==> r.result == NoImports && r.engine.store == e.store && r.err == Some(OpenFailed(src.openError))
    ensures src.Scanned? ==> r.err == if src.readError.Some? then Some(ReadFailed(src.readError.value)) else None
    ensures src.Scanned? ==>
      && r.result.added + r.result.duplicates + r.result.errors == NonBlankCount(src.lines, |src.lines|)
      && |r.result.errorLines| == r.result.errors
      && r.result.errorLines == FormatErrors(src.lines, |src.lines|)
    ensures src.Scanned? ==> var acc := AcceptedTickets(e.store, Classify(src.lines), |src.lines|, clockAt);
      && r.engine.store.tickets == e.store.tickets + acc
      && r.engine.store.nextId == e.store.nextId + r.result.added
      && r.result.added == |acc|
    ensures UrlsDistinct(e.store.tickets) ==> UrlsDistinct(r.engine.store.tickets)
    ensures SamePrimary(e.fs, r.engine.fs)
    ensures src.Unopenable? ==> r.engine.fs == CreateBackup(e.fs, clockAt(0).stamp).fs
    ensures src.Scanned? ==>
      r.engine.fs == BackupTrail(CreateBackup(e.fs, clockAt(0).stamp).fs, e.store, Classify(src.lines), |src.lines|, clockAt)
    ensures NoErrorsInjected(e.fs) && PrimaryPath(e.fs.homeDir) in e.fs.files ==>
      && HoldsPrimaryCopy(r.engine.fs, BackupPath(e.fs.homeDir, clockAt(0).stamp))
      && (src.Scanned? ==> CopiesForAdds(r.engine.fs, e.fs.homeDir, e.store, Classify(src.lines), |src.lines|, clockAt))
  {
    BackupLeavesPrimary(e.fs, clockAt(0).stamp);
    BackupWritesCopy(e.fs, clockAt(0).stamp);
    var fs0 := CreateBackup(e.fs, clockAt(0).stamp).fs;
    match src
    case Unopenable(err) => ImportOutcome(Engine(e.store, fs0), NoImports, Some(OpenFailed(err)))
    case Scanned(lines, readError) =>
      var ps := Classify(lines);
      var st := ImportPrefix(ImportState(e.store, NoImports), ps, |ps|, clockAt);
      ImportAccounting(e.store, lines, |lines|, clockAt);
      ImportAppendsAccepted(e.store, ps, |ps|, clockAt);
      ImportKeepsUrlsDistinct(e.store, ps, |ps|, clockAt);
      TrailKeepsPrimary(fs0, e.store, ps, |ps|, clockAt);
      ImportTrailWritesCopies(e.fs, e.store, ps, clockAt);
      var fs := BackupTrail(fs0, e.store, ps, |ps|, clockAt);
      ImportOutcome(Engine(st.store, fs), st.result, if readError.Some? then Some(ReadFailed(readError.value)) else None)
  }

  /** For a given `Source`, neither the counts, the error nor the store after
      an import depend on the file system the backups use: a failing or
      missing backup changes nothing about them. */
  lemma ImportIgnoresFileSystem(s: Store, fs1: FS, fs2: FS, src: Source, clockAt: nat -> Clock)
    ensures ImportFromFile(Engine(s, fs1), src, clockAt).engine.store == ImportFromFile(Engine(s, fs2), src, clockAt).engine.store
    ensures ImportFromFile(Engine(s, fs1), src, clockAt).result == ImportFromFile(Engine(s, fs2), src, clockAt).result
    ensures ImportFromFile(Engine(s, fs1), src, clockAt).err == ImportFromFile(Engine(s, fs2), src, clockAt).err
  {
  }
}

=== FILE: mock_fs.dfy ===
/** The repository's in-memory mock file system: a map from path to
    contents, a set of created directories, explicit `Stat` answers, and an
    error to inject per method name. Every storage operation in this model is
    written against these semantics. */
module MockFs {
  import opened Wrappers
  import opened GoStrings

  type Byte = b: int | 0 <= b < 256
  type Bytes = seq<Byte>

  /** `os.ErrNotExist` (the error `os.IsNotExist` recognises) or any other error. */
  datatype FsError = ErrNotExist | Fault(message: string)

  predicate IsNotExist(e: FsError) {
    e.ErrNotExist?
  }

  /** What `Stat` reports; the engine only ever branches on whether it failed. */
  datatype FileInfo = FileInfo(size: int)

  datatype DirEntry = DirEntry(name: string, isDir: bool)

  datatype FS = FS(
    homeDir: string,
    files: map<string, Bytes>,
    directories: set<string>,
    statResults: map<string, FileInfo>,
    errors: map<string, FsError>)

  /** The outcome of a method that changes the file system. */
  datatype Mutation = Mutation(fs: FS, err: Option<FsError>)

  function NewMockFileSystem(homeDir: string): (fs: FS)
    ensures fs.homeDir == homeDir
    ensures fs.files == map[] && fs.directories == {} && fs.statResults == map[] && fs.errors == map[]
  {
    FS(homeDir, map[], {}, map[], map[])
  }

  /** Make every later call of the method `methodName` fail with `err`. */
  function SetError(fs: FS, methodName: string, err: FsError): (r: FS)
    ensures methodName in r.errors && r.errors[methodName] == err
    ensures r == fs.(errors := r.errors)
    ensures forall m :: m in fs.errors && m != methodName ==> m in r.errors && r.errors[m] == fs.errors[m]
    ensures r.errors.Keys == fs.errors.Keys + {methodName}
  {
    fs.(errors := fs.errors[methodName := err])
  }

  function UserHomeDir(fs: FS): (r: Result<string, FsError>)
    ensures "UserHomeDir" in fs.errors <==> r.Failure?
    ensures r.Failure? ==> r.error == fs.errors["UserHomeDir"]
    ensures r.Success? ==> r.value == fs.homeDir
  {
    if "UserHomeDir" in fs.errors then Failure(fs.errors["UserHomeDir"]) else Success(fs.homeDir)
  }

  /** Records the directory; nothing else changes. */
  function MkdirAll(fs: FS, path: string): (r: Mutation)
    ensures "MkdirAll" in fs.errors ==> r == Mutation(fs, Some(fs.errors["MkdirAll"]))
    ensures "MkdirAll" !in fs.errors ==> r.err.None? && r.fs == fs.(directories := fs.directories + {path})
  {
    if "MkdirAll" in fs.errors then Mutation(fs, Some(fs.errors["MkdirAll"]))
    else Mutation(fs.(directories := fs.directories + {path}), None)
  }

  function ReadFile(fs: FS, name: string): (r: Result<Bytes, FsError>)
    ensures "ReadFile" in fs.errors ==> r == Failure(fs.errors["ReadFile"])
    ensures "ReadFile" !in fs.errors && name in fs.files ==> r == Success(fs.files[name])
    ensures "ReadFile" !in fs.errors && name !in fs.files ==> r == Failure(ErrNotExist)
  {
    if "ReadFile" in fs.errors then Failure(fs.errors["ReadFile"])
    else if name in fs.files then Success(fs.files[name])
    else Failure(ErrNotExist)
  }

  /** Creates or overwrites the file; nothing else changes. */
  function WriteFile(fs: FS, name: string, data: Bytes): (r: Mutation)
    ensures "WriteFile" in fs.errors ==> r == Mutation(fs, Some(fs.errors["WriteFile"]))
    ensures "WriteFile" !in fs.errors ==> r.err.None? && r.fs == fs.(files := fs.files[name := data])
  {
    if "WriteFile" in fs.errors then Mutation(fs, Some(fs.errors["WriteFile"]))
    else Mutation(fs.(files := fs.files[name := data]), None)
  }

  /** An explicit `statResults` entry wins over the file table. */
  function Stat(fs: FS, name: string): (r: Result<FileInfo, FsError>)
    ensures "Stat" in fs.errors ==> r == Failure(fs.errors["Stat"])
    ensures "Stat" !in fs.errors ==> (r.Success? <==> name in fs.statResults || name in fs.files)
    ensures "Stat" !in fs.errors && name in fs.statResults ==> r == Success(fs.statResults[name])
    ensures r.Failure? && "Stat" !in fs.errors ==> r.error == ErrNotExist
  {
    if "Stat" in fs.errors then Failure(fs.errors["Stat"])
    else if name in fs.statResults then Success(fs.statResults[name])
    else if name in fs.files then Success(FileInfo(|fs.files[name]|))
    else Failure(ErrNotExist)
  }

  /** The name `ReadDir(dirname)` lists for `filename`, if any: the path must
      start with `dirname` and a separator, both prefixes `dirname/` and
      `dirname\` are then trimmed in that order, and what is left must hold no
      separator. */
  function EntryName(filename: string, dirname: string): Option<string> {
    if HasPrefix(filename, dirname + "/") || HasPrefix(filename, dirname + "\\") then
      var rel := TrimPrefix(TrimPrefix(filename, dirname + "/"), dirname + "\\");
      if '/' !in rel && '\\' !in rel then Some(rel) else None
    else None
  }

  /** The entries produced by visiting the files in `order`. */
  function Listing(order: seq<string>, dirname: string): (r: seq<DirEntry>)
    ensures forall i :: 0 <= i < |r| ==> !r[i].isDir
  {
    if order == [] then []
    else
      var rest := Listing(order[1..], dirname);
      match EntryName(order[0], dirname)
      case Some(n) => [DirEntry(n, false)] + rest
      case None => rest
  }

  /** Every entry comes from a visited file inside the directory. */
  lemma {:induction false} ListingSound(order: seq<string>, dirname: string)
    ensures forall i :: 0 <= i < |Listing(order, dirname)| ==>
      exists k :: 0 <= k < |order| && EntryName(order[k], dirname) == Some(Listing(order, dirname)[i].name)
  {
    if order != [] {
      ListingSound(order[1..], dirname);
      var r := Listing(order, dirname);
      var rest := Listing(order[1..], dirname);
      forall i | 0 <= i < |r|
        ensures exists k :: 0 <= k < |order| && EntryName(order[k], dirname) == Some(r[i].name)
      {
        var j := if EntryName(order[0], dirname).Some? then i - 1 else i;
        if j < 0 {
          assert EntryName(order[0], dirname) == Some(r[i].name);
        } else {
          assert r[i] == rest[j];
          var k :| 0 <= k < |order[1..]| && EntryName(order[1..][k], dirname) == Some(rest[j].name);
          assert order[1..][k] == order[k + 1];
          assert EntryName(order[k + 1], dirname) == Some(r[i].name);
        }
      }
    } else {
      assert Listing(order, dirname) == [];
    }
  }

  /** Every visited file inside the directory is listed. */
  lemma {:induction false} ListingComplete(order: seq<string>, dirname: string)
    ensures forall k :: 0 <= k < |order| && EntryName(order[k], dirname).Some? ==>
      DirEntry(EntryName(order[k], dirname).value, false) in Listing(order, dirname)
  {
    if order != [] {
      ListingComplete(order[1..], dirname);
      forall k | 0 <= k < |order| && EntryName(order[k], dirname).Some?
        ensures DirEntry(EntryName(order[k], dirname).value, false) in Listing(order, dirname)
      {
        if k > 0 {
          assert order[k] == order[1..][k - 1];
        }
      }
    }
  }

  /** `order` visits every file of the table exactly once: the iteration order
      of a Go map, which is unspecified. */
  predicate Enumerates(order: seq<string>, files: map<string, Bytes>) {
    && (forall k :: 0 <= k < |order| ==> order[k] in files)
    && (forall f :: f in files ==> f in order)
    && (forall i, j :: 0 <= i < j < |order| ==> order[i] != order[j])
  }

  /** `ReadDir(dirname)` with the map visited in `order`. */
  function ReadDir(fs: FS, dirname: string, order: seq<string>): (r: Result<seq<DirEntry>, FsError>)
    requires Enumerates(order, fs.files)
    ensures "ReadDir" in fs.errors ==> r == Failure(fs.errors["ReadDir"])
    ensures "ReadDir" !in fs.errors ==> r.Success?
    ensures r.Success? ==> forall i :: 0 <= i < |r.value| ==>
      !r.value[i].isDir && exists f :: f in fs.files && EntryName(f, dirname) == Some(r.value[i].name)
    ensures r.Success? ==> forall f :: f in fs.files && EntryName(f, dirname).Some? ==>
      DirEntry(EntryName(f, dirname).value, false) in r.value
    ensures r.Success? ==> r.value == Listing(order, dirname)
  {
    if "ReadDir" in fs.errors then Failure(fs.errors["ReadDir"])
    else
      var entries := Listing(order, dirname);
      ListingSound(order, dirname);
      ListingComplete(order, dirname);
      assert forall f :: f in fs.files ==> exists k :: 0 <= k < |order| && order[k] == f;
      Success(entries)
  }

  /** A file directly inside the directory, joined with `/`, is listed under its
      own name. */
  lemma EntryNameOfChild(dirname: string, name: string)
    requires '/' !in name && '\\' !in name
    ensures EntryName(dirname + "/" + name, dirname) == Some(name)
  {
    var f := dirname + "/" + name;
    assert HasPrefix(f, dirname + "/") by {
      assert f[..|dirname + "/"|] == dirname + "/";
    }
    assert TrimPrefix(f, dirname + "/") == name;
  }

  /** Everything listed comes from a path that is the directory, one separator
      and the name, or, because both prefixes are trimmed, the directory, `/`,
      the directory again, `\` and the name. */
  lemma EntryNameShapes(filename: string, dirname: string)
    requires EntryName(filename, dirname).Some?
    ensures var n := EntryName(filename, dirname).value;
      && '/' !in n && '\\' !in n
      && (|| filename == dirname + "/" + n
          || filename == dirname + "\\" + n
          || filename == dirname + "/" + dirname + "\\" + n)
  {
    var n := EntryName(filename, dirname).value;
    var d1 := dirname + "/";
    var d2 := dirname + "\\";
    if HasPrefix(filename, d1) {
      var rel := TrimPrefix(filename, d1);
      assert filename == d1 + rel;
      if HasPrefix(rel, d2) {
        assert rel == d2 + n;
        assert filename == dirname + "/" + dirname + "\\" + n;
      } else {
        assert filename == dirname + "/" + n;
      }
    } else {
      assert HasPrefix(filename, d2);
      assert filename == d2 + TrimPrefix(filename, d2);
      assert !HasPrefix(filename, d1);
      assert TrimPrefix(filename, d1) == filename;
      assert filename == dirname + "\\" + n;
    }
  }

  /** The double trim in action: a file two levels down is listed as if it
      were a direct child. */
  lemma NestedFileListedAsChild()
    ensures EntryName("a/a\\x", "a") == Some("x")
  {
    assert HasPrefix("a/a\\x", "a/");
    assert TrimPrefix("a/a\\x", "a/") == "a\\x";
    assert HasPrefix("a\\x", "a\\");
    assert TrimPrefix("a\\x", "a\\") == "x";
  }

  /** Writing then reading a path gives back the data written, later writes
      overwrite earlier ones, and other paths are not affected. */
  lemma WriteThenRead(fs: FS, name: string, data: Bytes, other: string)
    requires "WriteFile" !in fs.errors && "ReadFile" !in fs.errors
    ensures ReadFile(WriteFile(fs, name, data).fs, name) == Success(data)
    ensures other != name ==> ReadFile(WriteFile(fs, name, data).fs, other) == ReadFile(fs, other)
  {
  }

  lemma WriteOverwrites(fs: FS, name: string, first: Bytes, second: Bytes)
    requires "WriteFile" !in fs.errors && "ReadFile" !in fs.errors
    ensures ReadFile(WriteFile(WriteFile(fs, name, first).fs, name, second).fs, name) == Success(second)
  {
  }

  /** After a successful write, `Stat` finds the file. */
  lemma StatAfterWrite(fs: FS, name: string, data: Bytes)
    requires "WriteFile" !in fs.errors && "Stat" !in fs.errors
    ensures Stat(WriteFile(fs, name, data).fs, name).Success?
  {
  }

  /** A path never written (and given no explicit `Stat` answer) does not exist. */
  lemma NeverWrittenDoesNotExist(name: string, home: string)
    ensures ReadFile(NewMockFileSystem(home), name) == Failure(ErrNotExist)
    ensures Stat(NewMockFileSystem(home), name) == Failure(ErrNotExist)
  {
  }

  /** `MkdirAll` only records the directory: listings are unaffected. */
  lemma MkdirAllInvisibleToReadDir(fs: FS, path: string, dirname: string, order: seq<string>)
    requires Enumerates(order, fs.files)
    ensures Enumerates(order, MkdirAll(fs, path).fs.files)
    ensures ReadDir(MkdirAll(fs, path).fs, dirname, order) == ReadDir(fs, dirname, order)
  {
  }
}

=== FILE: persistence.dfy ===
/** Saving the store to the primary file and loading it back. */
module Persistence {
  import opened Wrappers
  import opened MockFs
  import opened TicketStore
  import opened Codec
  import opened Paths
  import opened Backups

  /** `Save`: create the data directory, encode the store and write the
      primary file. A directory created before a later failure stays. */
  function Save(s: Store, fs: FS, codec: Codec): (r: Outcome)
    ensures "UserHomeDir" in fs.errors ==> r == Outcome(fs, Some(FsFailure(fs.errors["UserHomeDir"])))
    ensures "UserHomeDir" !in fs.errors && "MkdirAll" in fs.errors ==> r == Outcome(fs, Some(FsFailure(fs.errors["MkdirAll"])))
    ensures r.err.None? <==>
      ("UserHomeDir" !in fs.errors && "MkdirAll" !in fs.errors && codec.marshal(s).Success? && "WriteFile" !in fs.errors)
    ensures r.err.None? ==> var primary := PrimaryPath(fs.homeDir);
      && primary in r.fs.files && r.fs.files[primary] == codec.marshal(s).value
      && r.fs == fs.(files := fs.files[primary := codec.marshal(s).value], directories := fs.directories + {DataDir(fs.homeDir)})
    ensures r.err.Some? ==> r.fs.files == fs.files
    ensures "UserHomeDir" !in fs.errors && "MkdirAll" !in fs.errors && codec.marshal(s).Failure? ==>
      r == Outcome(fs.(directories := fs.directories + {DataDir(fs.homeDir)}), Some(EncodeFailed(codec.marshal(s).error)))
    ensures "UserHomeDir" !in fs.errors && "MkdirAll" !in fs.errors && codec.marshal(s).Success? && "WriteFile" in fs.errors ==>
      r == Outcome(fs.(directories := fs.directories + {DataDir(fs.homeDir)}), Some(FsFailure(fs.errors["WriteFile"])))
  {
    match UserHomeDir(fs)
    case Failure(e) => Outcome(fs, Some(FsFailure(e)))
    case Success(home) =>
      var m := MkdirAll(fs, DataDir(home));
      if m.err.Some? then Outcome(fs, Some(FsFailure(m.err.value)))
      else
        match codec.marshal(s)
        case Failure(reason) => Outcome(m.fs, Some(EncodeFailed(reason)))
        case Success(data) =>
          var w := WriteFile(m.fs, PrimaryPath(home), data);
          if w.err.Some? then Outcome(m.fs, Some(FsFailure(w.err.value))) else Outcome(w.fs, None)
  }

  /** `LoadTicketsFromPathWithFS`: never fails. An unreadable or undecodable
      file gives a new store; a decoded counter of 0 becomes 1 and any other
      value, negative ones included, is kept. */
  function LoadFromPath(fs: FS, codec: Codec, path: string): (r: Store)
    ensures r.nextId != 0
    ensures ReadFile(fs, path).Failure? ==> r == NewTicketStorage()
    ensures ReadFile(fs, path).Success? && codec.unmarshal(ReadFile(fs, path).value).Failure? ==> r == NewTicketStorage()
    ensures ReadFile(fs, path).Success? && codec.unmarshal(ReadFile(fs, path).value).Success? ==>
      var d := codec.unmarshal(ReadFile(fs, path).value).value;
      r.tickets == d.tickets && (r.nextId == if d.nextId == 0 then 1 else d.nextId)
  {
    match ReadFile(fs, path)
    case Failure(_) => NewTicketStorage()
    case Success(data) =>
      match codec.unmarshal(data)
      case Failure(_) => NewTicketStorage()
      case Success(d) => if d.nextId == 0 then d.(nextId := 1) else d
  }

  /** `LoadTicketsWithFS`: load the primary file, or a new store when the home
      directory is unknown. */
  function Load(fs: FS, codec: Codec): (r: Store)
    ensures r.nextId != 0
    ensures "UserHomeDir" in fs.errors ==> r == NewTicketStorage()
    ensures "UserHomeDir" !in fs.errors ==> r == LoadFromPath(fs, codec, PrimaryPath(fs.homeDir))
  {
    match UserHomeDir(fs)
    case Failure(_) => NewTicketStorage()
    case Success(home) => LoadFromPath(fs, codec, PrimaryPath(home))
  }

  /** A store saved with a codec that round-trips on it loads back unchanged
      (its counter is never 0 in a store the engine made, which the load
      would turn into 1). */
  lemma SaveThenLoad(s: Store, fs: FS, codec: Codec)
    requires NoErrorsInjected(fs)
    requires RoundTripsOn(codec, s) && s.nextId != 0
    ensures Save(s, fs, codec).err.None?
    ensures Load(Save(s, fs, codec).fs, codec) == s
  {
  }

  /** Nothing saved yet: the first load gives a new store. */
  lemma LoadWithoutFile(home: string, codec: Codec)
    ensures Load(NewMockFileSystem(home), codec) == NewTicketStorage()
  {
  }
}

=== FILE: scan.dfy ===
/** Linear scans over index ranges and sequences. The regular-expression
    matchers and the store operations are all built from these. */
module Scan {
  import opened Wrappers

  /** The least index in [lo, hi) satisfying `p`: the leftmost match. */
  function FirstWhere(lo: nat, hi: nat, p: nat -> bool): (r: Option<nat>)
    requires lo <= hi
    ensures r.Some? ==> lo <= r.value < hi && p(r.value)
    ensures r.Some? ==> forall k :: lo <= k < r.value ==> !p(k)
    ensures r.None? ==> forall k :: lo <= k < hi ==> !p(k)
    ensures forall k :: lo <= k < hi && p(k) && (forall j :: lo <= j < k ==> !p(j)) ==> r == Some(k)
    decreases hi - lo
  {
    if lo == hi then None
    else if p(lo) then Some(lo)
    else FirstWhere(lo + 1, hi, p)
  }

  /** The greatest index in [lo, hi) satisfying `p`: what a greedy `.*` settles on. */
  function LastWhere(lo: nat, hi: nat, p: nat -> bool): (r: Option<nat>)
    requires lo <= hi
    ensures r.Some? ==> lo <= r.value < hi && p(r.value)
    ensures r.Some? ==> forall k :: r.value < k < hi ==> !p(k)
    ensures r.None? ==> forall k :: lo <= k < hi ==> !p(k)
    decreases hi - lo
  {
    if lo == hi then None
    else if p(hi - 1) then Some(hi - 1)
    else LastWhere(lo, hi - 1, p)
  }

  /** The elements of `s` satisfying `p`, in their original order. */
  function Filter<T>(s: seq<T>, p: T -> bool): (r: seq<T>)
    ensures |r| <= |s|
    ensures forall i :: 0 <= i < |r| ==> r[i] in s && p(r[i])
    ensures forall i :: 0 <= i < |s| && p(s[i]) ==> s[i] in r
  {
    if s == [] then []
    else if p(s[0]) then [s[0]] + Filter(s[1..], p)
    else Filter(s[1..], p)
  }

  /** Filtering distributes over concatenation: the order of survivors is the
      order of the input. */
  lemma {:induction false} FilterAppend<T>(a: seq<T>, b: seq<T>, p: T -> bool)
    ensures Filter(a + b, p) == Filter(a, p) + Filter(b, p)
  {
    if a == [] {
      assert a + b == b;
    } else {
      assert (a + b)[1..] == a[1..] + b;
      FilterAppend(a[1..], b, p);
    }
  }

  /** Filtering with a predicate every element satisfies is the identity. */
  lemma {:induction false} FilterAll<T>(s: seq<T>, p: T -> bool)
    requires forall i :: 0 <= i < |s| ==> p(s[i])
    ensures Filter(s, p) == s
  {
    if s != [] {
      FilterAll(s[1..], p);
    }
  }

  /** Two predicates that agree on every element select the same subsequence. */
  lemma {:induction false} FilterCongruent<T>(s: seq<T>, p: T -> bool, q: T -> bool)
    requires forall i :: 0 <= i < |s| ==> p(s[i]) == q(s[i])
    ensures Filter(s, p) == Filter(s, q)
  {
    if s != [] {
      FilterCongruent(s[1..], p, q);
    }
  }
}

=== FILE: store.dfy ===
/** The ticket store: an ordered sequence of tickets plus the id the next
    ticket will get. These are the store's own operations; the versions that
    first take a backup are in module Engine. */
module TicketStore {
  import opened Wrappers
  import opened Scan
  import opened GoStrings
  import opened Tickets

  datatype Store = Store(tickets: seq<Ticket>, nextId: int)

  /** `NewTicketStorage`: no tickets, and ids start at 1. */
  function NewTicketStorage(): (s: Store)
    ensures s.tickets == [] && s.nextId == 1
  {
    Store([], 1)
  }

  /** Every id is distinct and below the id the store will issue next. */
  predicate IdsValid(s: Store) {
    && (forall i, j :: 0 <= i < j < |s.tickets| ==> s.tickets[i].id != s.tickets[j].id)
    && (forall i :: 0 <= i < |s.tickets| ==> s.tickets[i].id < s.nextId)
  }

  /** No two tickets share a URL. */
  predicate UrlsDistinct(tickets: seq<Ticket>) {
    forall i, j :: 0 <= i < j < |tickets| ==> tickets[i].url != tickets[j].url
  }

  /** `AddTicket` without its backup: append a ticket carrying the next id and
      advance the counter. No duplicate check is made. */
  function Add(s: Store, title: string, url: string, at: Timestamp): (r: Store)
    ensures |r.tickets| == |s.tickets| + 1 && r.tickets[..|s.tickets|] == s.tickets
    ensures r.tickets[|s.tickets|] == Ticket(s.nextId, title, url, at)
    ensures r.nextId == s.nextId + 1
    ensures IdsValid(s) ==> IdsValid(r)
  {
    Store(s.tickets + [Ticket(s.nextId, title, url, at)], s.nextId + 1)
  }

  /** The tickets a run of adds creates: consecutive ids from `firstId`. */
  function NewTickets(entries: seq<(string, string)>, firstId: int, at: Timestamp): (r: seq<Ticket>)
    ensures |r| == |entries|
    ensures forall k :: 0 <= k < |r| ==>
      r[k] == Ticket(firstId + k, entries[k].1, entries[k].0, at)
  {
    seq(|entries|, k requires 0 <= k < |entries| => Ticket(firstId + k, entries[k].1, entries[k].0, at))
  }

  /** One add followed by the rest's new tickets is all the new tickets. */
  lemma AddThenNewTickets(s: Store, entries: seq<(string, string)>, at: Timestamp)
    requires entries != []
    ensures Add(s, entries[0].1, entries[0].0, at).tickets + NewTickets(entries[1..], s.nextId + 1, at)
      == s.tickets + NewTickets(entries, s.nextId, at)
  {
    var added := Add(s, entries[0].1, entries[0].0, at).tickets;
    var rest := NewTickets(entries[1..], s.nextId + 1, at);
    var all := NewTickets(entries, s.nextId, at);
    var lhs := added + rest;
    var rhs := s.tickets + all;
    var n := |s.tickets|;
    assert |lhs| == |rhs|;
    forall k | 0 <= k < |lhs|
      ensures lhs[k] == rhs[k]
    {
      if k < n {
        assert lhs[k] == added[k] == added[..n][k];
      } else if k == n {
        assert lhs[k] == added[n];
      } else {
        assert lhs[k] == rest[k - n - 1];
        assert rhs[k] == all[k - n];
      }
    }
  }

  /** Adding (url, title) entries one after another, in order. */
  function AddAll(s: Store, entries: seq<(string, string)>, at: Timestamp): Store
    decreases |entries|
  {
    if entries == [] then s
    else AddAll(Add(s, entries[0].1, entries[0].0, at), entries[1..], at)
  }

  /** N adds append N tickets with consecutive ids starting at the old
      counter, and advance the counter by N. */
  lemma {:induction false} AddAllAppends(s: Store, entries: seq<(string, string)>, at: Timestamp)
    ensures AddAll(s, entries, at) == Store(s.tickets + NewTickets(entries, s.nextId, at), s.nextId + |entries|)
    decreases |entries|
  {
    if entries != [] {
      var s1 := Add(s, entries[0].1, entries[0].0, at);
      assert AddAll(s, entries, at) == AddAll(s1, entries[1..], at);
      AddAllAppends(s1, entries[1..], at);
      AddThenNewTickets(s, entries, at);
      assert s1.nextId + |entries[1..]| == s.nextId + |entries|;
    } else {
      assert s.tickets + NewTickets(entries, s.nextId, at) == s.tickets;
    }
  }

  /** From a new store, after N adds the counter is 1 + N and every ticket's
      id is its 1-based creation position. */
  lemma AddsFromNewStore(entries: seq<(string, string)>, at: Timestamp)
    ensures AddAll(NewTicketStorage(), entries, at).nextId == 1 + |entries|
    ensures var ts := AddAll(NewTicketStorage(), entries, at).tickets;
      |ts| == |entries| && forall k :: 0 <= k < |ts| ==> ts[k].id == k + 1
  {
    AddAllAppends(NewTicketStorage(), entries, at);
  }

  /** `HasTicketWithURL`: exact, case-sensitive comparison with every stored URL. */
  function HasTicketWithURL(s: Store, url: string): (r: bool)
    ensures r <==> exists i :: 0 <= i < |s.tickets| && s.tickets[i].url == url
  {
    var at := (i: nat) => i < |s.tickets| && s.tickets[i].url == url;
    assert forall i: nat :: at(i) == (i < |s.tickets| && s.tickets[i].url == url);
    FirstWhere(0, |s.tickets|, at).Some?
  }

  /** After an add, exactly the old URLs and the new one are present. */
  lemma HasUrlAfterAdd(s: Store, title: string, url: string, at: Timestamp, u: string)
    ensures HasTicketWithURL(Add(s, title, url, at), u) <==> HasTicketWithURL(s, u) || u == url
  {
    var r := Add(s, title, url, at);
    if HasTicketWithURL(s, u) {
      var i :| 0 <= i < |s.tickets| && s.tickets[i].url == u;
      assert r.tickets[i] == s.tickets[i];
    }
    if HasTicketWithURL(r, u) && u != url {
      var i :| 0 <= i < |r.tickets| && r.tickets[i].url == u;
      assert r.tickets[i] == s.tickets[i];
    }
    if u == url {
      assert r.tickets[|s.tickets|].url == u;
    }
  }

  /** Adding a URL the store does not hold keeps URLs distinct. */
  lemma AddFreshUrlKeepsDistinct(s: Store, title: string, url: string, at: Timestamp)
    requires UrlsDistinct(s.tickets) && !HasTicketWithURL(s, url)
    ensures UrlsDistinct(Add(s, title, url, at).tickets)
  {
    var r := Add(s, title, url, at);
    forall i, j | 0 <= i < j < |r.tickets|
      ensures r.tickets[i].url != r.tickets[j].url
    {
      assert r.tickets[i] == s.tickets[i];
      if j < |s.tickets| {
        assert r.tickets[j] == s.tickets[j];
      }
    }
  }

  /** The position of the first ticket with this id. */
  function FirstWithId(tickets: seq<Ticket>, id: int): (r: Option<nat>)
    ensures r.Some? ==> r.value < |tickets| && tickets[r.value].id == id
    ensures r.Some? ==> forall j :: 0 <= j < r.value ==> tickets[j].id != id
    ensures r.None? ==> forall j :: 0 <= j < |tickets| ==> tickets[j].id != id
  {
    var at := (i: nat) => i < |tickets| && tickets[i].id == id;
    assert forall i: nat :: at(i) == (i < |tickets| && tickets[i].id == id);
    FirstWhere(0, |tickets|, at)
  }

  datatype Deletion = Deletion(store: Store, deleted: bool)

  /** `DeleteTicket` without its backup: remove the first ticket with the id,
      keeping the others in order. The counter never goes back. */
  function Delete(s: Store, id: int): (r: Deletion)
    ensures r.deleted <==> exists i :: 0 <= i < |s.tickets| && s.tickets[i].id == id
    ensures r.deleted ==> var i := FirstWithId(s.tickets, id).value;
      r.store.tickets == s.tickets[..i] + s.tickets[i + 1..]
    ensures !r.deleted ==> r.store == s
    ensures r.store.nextId == s.nextId
    ensures IdsValid(s) ==> IdsValid(r.store)
    ensures IdsValid(s) ==> forall j :: 0 <= j < |r.store.tickets| ==> r.store.tickets[j].id != id
  {
    match FirstWithId(s.tickets, id)
    case None => Deletion(s, false)
    case Some(i) =>
      var rest := s.tickets[..i] + s.tickets[i + 1..];
      assert forall j :: 0 <= j < |rest| ==> rest[j] == if j < i then s.tickets[j] else s.tickets[j + 1];
      Deletion(Store(rest, s.nextId), true)
  }

  /** Deleting the same id twice succeeds, then fails. */
  lemma DeleteTwice(s: Store, id: int)
    requires IdsValid(s)
    requires exists i :: 0 <= i < |s.tickets| && s.tickets[i].id == id
    ensures Delete(s, id).deleted
    ensures !Delete(Delete(s, id).store, id).deleted
    ensures Delete(Delete(s, id).store, id).store == Delete(s, id).store
  {
  }

  /** A ticket the search keeps: the lower-cased title or URL contains the
      lower-cased query. */
  predicate MatchesQuery(t: Ticket, lowerQuery: string) {
    Contains(ToLower(t.title), lowerQuery) || Contains(ToLower(t.url), lowerQuery)
  }

  /** `Search`: the empty query returns everything, any other query the
      matching tickets in store order. */
  function Search(s: Store, query: string): (r: seq<Ticket>)
    ensures query == "" ==> r == s.tickets
    ensures |r| <= |s.tickets|
    ensures forall i :: 0 <= i < |r| ==> r[i] in s.tickets
    ensures query != "" ==> forall i :: 0 <= i < |r| ==> MatchesQuery(r[i], ToLower(query))
    ensures query != "" ==> forall i :: 0 <= i < |s.tickets| && MatchesQuery(s.tickets[i], ToLower(query)) ==>
      s.tickets[i] in r
  {
    if query == "" then s.tickets
    else
      var q := ToLower(query);
      Filter(s.tickets, t => MatchesQuery(t, q))
  }

  /** Search keeps store order: searching a store whose tickets are `a + b`
      gives the hits in `a` followed by the hits in `b`. */
  lemma SearchKeepsOrder(a: seq<Ticket>, b: seq<Ticket>, nextId: int, query: string)
    ensures Search(Store(a + b, nextId), query) == Search(Store(a, nextId), query) + Search(Store(b, nextId), query)
  {
    if query != "" {
      var q := ToLower(query);
      FilterAppend(a, b, t => MatchesQuery(t, q));
    }
  }

  /** Search ignores the case of the query's ASCII letters. */
  lemma SearchIgnoresQueryCase(s: Store, q1: string, q2: string)
    requires ToLower(q1) == ToLower(q2)
    ensures Search(s, q1) == Search(s, q2)
  {
  }

  /** The operations a user issues against the store, without their backups. */
  datatype Command = AddCommand(title: string, url: string, at: Timestamp) | DeleteCommand(id: int)

  function Apply(s: Store, c: Command): Store {
    match c
    case AddCommand(title, url, at) => Add(s, title, url, at)
    case DeleteCommand(id) => Delete(s, id).store
  }

  function Run(s: Store, cmds: seq<Command>): Store
    decreases |cmds|
  {
    if cmds == [] then s else Run(Apply(s, cmds[0]), cmds[1..])
  }

  /** Ids are never reused: over any run of adds and deletes the counter never
      decreases, the id invariant holds, and every ticket not present at the
      start carries an id at least the starting counter, so it differs from
      every id the store ever held before, deleted ones included. */
  lemma {:induction false} IdsNeverReused(s: Store, cmds: seq<Command>)
    requires IdsValid(s)
    ensures Run(s, cmds).nextId >= s.nextId
    ensures IdsValid(Run(s, cmds))
    ensures forall t :: t in Run(s, cmds).tickets && t !in s.tickets ==> t.id >= s.nextId
    decreases |cmds|
  {
    if cmds != [] {
      var s1 := Apply(s, cmds[0]);
      assert s1.nextId >= s.nextId;
      assert forall t :: t in s1.tickets && t !in s.tickets ==> t.id >= s.nextId by {
        match cmds[0]
        case AddCommand(title, url, at) =>
          forall t | t in s1.tickets && t !in s.tickets
            ensures t.id >= s.nextId
          {
            assert s1.tickets == s.tickets + [Ticket(s.nextId, title, url, at)];
          }
        case DeleteCommand(id) =>
          forall t | t in s1.tickets
            ensures t in s.tickets
          {
            var k :| 0 <= k < |s1.tickets| && s1.tickets[k] == t;
          }
      }
      IdsNeverReused(s1, cmds[1..]);
    }
  }
}

=== FILE: ticket.dfy ===
/** A ticket record and the strings the list view shows for it: the display
    number picked out of the URL, the display title, the filter text and the
    description. */
module Tickets {
  import opened Wrappers
  import opened GoStrings
  import opened UrlPatterns

  /** `time.Time`, reduced to what the engine does with it: it is stored. */
  datatype Timestamp = Timestamp(unixNano: int)

  datatype Ticket = Ticket(id: int, title: string, url: string, createdAt: Timestamp)

  /** None of the five URL patterns matches. */
  predicate NoPatternMatches(url: string) {
    && ProjectKeyNumber(url).None? && LastSegmentNumber(url).None? && TrailingNumber(url).None?
    && KeywordNumber(url).None? && LongNumber(url).None?
  }

  /** The display number: the first pattern that matches wins, and the
      ticket's own id printed with `%06d` is the last resort. */
  function ExtractTicketNumber(t: Ticket): (r: string)
    ensures t.id >= 0 ==> r != [] && AllDigits(r)
    ensures NoPatternMatches(t.url) ==> |r| >= 6
    ensures NoPatternMatches(t.url) && t.id >= 0 ==> DecimalValue(r) == t.id
    ensures NoPatternMatches(t.url) && t.id < 0 ==> r[0] == '-' && AllDigits(r[1..]) && DecimalValue(r[1..]) == -t.id
  {
    var key := ProjectKeyNumber(t.url);
    if key.Some? then key.value else
    var segment := LastSegmentNumber(t.url);
    if segment.Some? then segment.value else
    var trailing := TrailingNumber(t.url);
    if trailing.Some? then trailing.value else
    var keyword := KeywordNumber(t.url);
    if keyword.Some? then keyword.value else
    var long := LongNumber(t.url);
    if long.Some? then long.value else
    FormatZeroPadded(t.id, 6)
  }

  /** A project key anywhere in the URL decides the number, whatever else the
      URL holds: the leftmost key's digits are taken. */
  lemma ProjectKeyWins(t: Ticket, k: nat)
    requires ProjectKeyAt(t.url, k) && forall j: nat :: j < k ==> !ProjectKeyAt(t.url, j)
    ensures ExtractTicketNumber(t) == DigitsAt(t.url, ProjectKeyDigits(t.url, k).value)
  {
  }

  /** Without a project key, a single-line URL whose last path segment is all
      digits (optionally followed by `/`, `?` or `#` and more) shows that
      segment: `.../issues/456/` shows `456`, `.../project/123/issues/456789`
      shows `456789`. */
  lemma LastPathSegmentWins(t: Ticket, i: nat)
    requires forall k: nat :: !ProjectKeyAt(t.url, k)
    requires NoNewline(t.url)
    requires SegmentAt(t.url, i) && forall k: nat :: i < k ==> !SegmentAt(t.url, k)
    ensures ExtractTicketNumber(t) == DigitsAt(t.url, i + 2)
  {
    LastSegmentOnOneLine(t.url, i);
  }

  /** Without a project key or a last digit segment, the leftmost `/digits`
      that ends the URL or precedes `/`, `?` or `#` decides:
      `.../projects//123` shows `123`. */
  lemma TrailingNumberWins(t: Ticket, i: nat)
    requires forall k: nat :: !ProjectKeyAt(t.url, k)
    requires forall k: nat :: !SegmentAt(t.url, k)
    requires SlashNumberAt(t.url, i) && forall k: nat :: k < i ==> !SlashNumberAt(t.url, k)
    ensures ExtractTicketNumber(t) == DigitsAt(t.url, i + 1)
  {
    TrailingNumberLeftmost(t.url, i);
  }

  /** When no path pattern matches, the leftmost `issue`, `ticket` or `task`
      (optionally plural) followed by `/` or `=` and digits is used, found in
      the lower-cased URL: `.../task=999888` shows `999888`. */
  lemma KeywordWins(t: Ticket, k: nat)
    requires forall j: nat :: !ProjectKeyAt(t.url, j)
    requires forall j: nat :: !SegmentAt(t.url, j)
    requires forall j: nat :: !SlashNumberAt(t.url, j)
    requires KeywordAt(ToLower(t.url), k) && forall j: nat :: j < k ==> !KeywordAt(ToLower(t.url), j)
    ensures ExtractTicketNumber(t) == DigitsAt(ToLower(t.url), KeywordDigits(ToLower(t.url), k).value)
  {
    LeftmostKeywordWins(ToLower(t.url), k);
  }

  /** When none of the first four patterns matches, the leftmost run of six
      or more digits is shown whole: `.../view?x=1234567` shows `1234567`. */
  lemma LongNumberWins(t: Ticket, k: nat)
    requires forall j: nat :: !ProjectKeyAt(t.url, j)
    requires forall j: nat :: !SegmentAt(t.url, j)
    requires forall j: nat :: !SlashNumberAt(t.url, j)
    requires forall j: nat :: !KeywordAt(ToLower(t.url), j)
    requires LongNumberAt(t.url, k) && forall j: nat :: j < k ==> !LongNumberAt(t.url, j)
    ensures ExtractTicketNumber(t) == DigitsAt(t.url, k)
  {
    LongNumberLeftmost(t.url, k);
  }

  /** A URL without any digit falls back to the zero-padded id. */
  lemma NoDigitsShowsPaddedId(t: Ticket)
    requires forall i :: 0 <= i < |t.url| ==> !IsDigit(t.url[i])
    ensures ExtractTicketNumber(t) == FormatZeroPadded(t.id, 6)
  {
    NoDigitsNoMatch(t.url);
  }

  /** `%06d` of 1 is `000001`. */
  lemma PaddedIdOne()
    ensures FormatZeroPadded(1, 6) == "000001"
  {
    assert Decimal(1) == "1";
    assert Zeros(5) == "00000";
  }

  /** `GetTitle`: the list's title line. */
  function GetTitle(t: Ticket): (r: string)
    ensures HasPrefix(r, "SCR #") && HasSuffix(r, t.title)
  {
    var num := ExtractTicketNumber(t);
    DisplayTitleShape(num, t.title);
    "SCR #" + num + " - " + t.title
  }

  lemma DisplayTitleShape(num: string, title: string)
    ensures HasPrefix("SCR #" + num + " - " + title, "SCR #")
    ensures HasSuffix("SCR #" + num + " - " + title, title)
  {
    var r := "SCR #" + num + " - " + title;
    assert r[..5] == "SCR #";
    assert r[|r| - |title|..] == title;
  }

  /** The display title splits back, at its first " - ", into the numbered
      prefix and the full title, even when the title itself contains " - ". */
  lemma DisplayTitleSplitsBack(t: Ticket)
    ensures SplitN2(GetTitle(t), " - ") == ["SCR #" + ExtractTicketNumber(t), t.title]
  {
    NumberHasNoSpace(t);
    NumberedTitleSplitsBack(ExtractTicketNumber(t), t.title);
  }

  /** Whichever rule produced it, a ticket number is never empty and holds
      no space: digits, or a minus sign and digits for a negative ID. */
  lemma NumberHasNoSpace(t: Ticket)
    ensures ExtractTicketNumber(t) != [] && ' ' !in ExtractTicketNumber(t)
  {
  }

  lemma NumberedTitleSplitsBack(num: string, title: string)
    requires ' ' !in num
    ensures SplitN2("SCR #" + num + " - " + title, " - ") == ["SCR #" + num, title]
  {
    var s := "SCR #" + num + " - " + title;
    var v := 5 + |num|;
    assert s[v..v + 3] == " - ";
    assert OccursAt(s, " - ", v);
    forall m: nat | m < v
      ensures !OccursAt(s, " - ", m)
    {
      if m == 3 {
        assert s[m + 1] == '#';
      } else if m < 5 {
        assert s[m] != ' ';
      } else {
        assert s[m] == num[m - 5] && num[m - 5] in num;
      }
    }
    assert IndexOf(s, " - ") == Some(v);
    assert s[..v] == "SCR #" + num;
    assert s[v + 3..] == title;
  }

  /** `FilterValue`: the text the list filter searches. */
  function FilterValue(t: Ticket): (r: string)
    ensures |r| == |t.title| + 1 + |t.url|
  {
    t.title + " " + t.url
  }

  /** `GetDescription`: the list's second line. */
  function GetDescription(t: Ticket): (r: string)
    ensures |r| == |t.url|
  {
    t.url
  }

  /** The filter text is the title, one space and the URL, and the description
      is the URL: both fields stay searchable and recoverable. */
  lemma ListItemTexts(t: Ticket)
    ensures HasPrefix(FilterValue(t), t.title) && FilterValue(t)[|t.title|] == ' '
    ensures HasSuffix(FilterValue(t), t.url)
    ensures GetDescription(t) == t.url
  {
  }
}

=== FILE: url_patterns.dfy ===
/** The five regular expressions the ticket-number cascade tries, written as
    leftmost-first matchers (the semantics of Go's `FindStringSubmatch`). Each
    returns the first capture group, a run of ASCII digits. In Go's syntax `.`
    does not match a newline while a negated class such as `[^/]` does, and
    `$` matches only at the end of the text; the matchers follow that. */
module UrlPatterns {
  import opened Wrappers
  import opened Scan
  import opened GoStrings

  /** The end of the run of digits starting at `k`: `\d+` is greedy. */
  function DigitRunEnd(s: string, k: nat): (j: nat)
    requires k <= |s|
    ensures k <= j <= |s|
    ensures forall m :: k <= m < j ==> IsDigit(s[m])
    ensures j == |s| || !IsDigit(s[j])
    decreases |s| - k
  {
    if k < |s| && IsDigit(s[k]) then DigitRunEnd(s, k + 1) else k
  }

  /** The end of the run of upper-case ASCII letters starting at `k`. */
  function UpperRunEnd(s: string, k: nat): (j: nat)
    requires k <= |s|
    ensures k <= j <= |s|
    ensures forall m :: k <= m < j ==> IsUpper(s[m])
    ensures j == |s| || !IsUpper(s[j])
    decreases |s| - k
  {
    if k < |s| && IsUpper(s[k]) then UpperRunEnd(s, k + 1) else k
  }

  /** The digits captured by a `(\d+)` group that starts at `k`. */
  function DigitsAt(s: string, k: nat): (d: string)
    requires k < |s| && IsDigit(s[k])
    ensures d != [] && AllDigits(d)
  {
    s[k..DigitRunEnd(s, k)]
  }

  predicate NoNewline(s: string) {
    forall i :: 0 <= i < |s| ==> s[i] != '\n'
  }

  // ---- `[A-Z]+-(\d+)` -------------------------------------------------------

  /** Where the digits of a project key starting at `k` begin, if one does. The
      letter run cannot give back characters to let `-` match, so only the
      whole run is tried. */
  function ProjectKeyDigits(s: string, k: nat): (r: Option<nat>)
    ensures r.Some? ==> k < r.value < |s| && IsDigit(s[r.value]) && s[r.value - 1] == '-'
  {
    if k > |s| then None
    else
      var u := UpperRunEnd(s, k);
      if k < u && u + 1 < |s| && s[u] == '-' && IsDigit(s[u + 1]) then Some(u + 1) else None
  }

  predicate ProjectKeyAt(s: string, k: nat) {
    ProjectKeyDigits(s, k).Some?
  }

  /** The number of the leftmost project key such as `PROJ-789`. */
  function ProjectKeyNumber(s: string): (r: Option<string>)
    ensures r.None? <==> forall k: nat :: !ProjectKeyAt(s, k)
    ensures r.Some? ==> r.value != [] && AllDigits(r.value)
    ensures forall k: nat :: ProjectKeyAt(s, k) && (forall j: nat :: j < k ==> !ProjectKeyAt(s, j)) ==>
      r == Some(DigitsAt(s, ProjectKeyDigits(s, k).value))
  {
    var at := (k: nat) => ProjectKeyAt(s, k);
    assert forall k: nat :: at(k) == ProjectKeyAt(s, k);
    match FirstWhere(0, |s| + 1, at)
    case None => None
    case Some(k) => Some(DigitsAt(s, ProjectKeyDigits(s, k).value))
  }

  // ---- `.*[^/]/(\d+)(?:[/?#].*)?$` ------------------------------------------

  /** After the digits ending at `j`, either the text ends or one of `/?#`
      follows and `.*` reaches the end of the text. */
  predicate NumberEndsPath(s: string, j: nat)
    requires j <= |s|
  {
    j == |s| || (s[j] in "/?#" && NoNewline(s[j + 1..]))
  }

  /** `[^/]/(\d+)(?:[/?#].*)?$` matches with the `[^/]` at `i`: a path segment
      of digits that is the last one, not preceded by an empty segment. */
  predicate SegmentAt(s: string, i: nat) {
    && i + 2 < |s| && s[i] != '/' && s[i + 1] == '/' && IsDigit(s[i + 2])
    && NumberEndsPath(s, DigitRunEnd(s, i + 2))
  }

  /** The whole pattern matches from `p`, with the leading `.*` covering `s[p..i]`. */
  predicate PathMatch(s: string, p: nat, i: nat) {
    p <= i < |s| && NoNewline(s[p..i]) && SegmentAt(s, i)
  }

  /** For a match starting at `p`, the split the greedy `.*` settles on. */
  function GreedySplit(s: string, p: nat): (r: Option<nat>)
    requires p <= |s|
    ensures r.Some? ==> PathMatch(s, p, r.value) && forall i: nat :: r.value < i ==> !PathMatch(s, p, i)
    ensures r.None? ==> forall i: nat :: !PathMatch(s, p, i)
  {
    var at := (i: nat) => PathMatch(s, p, i);
    assert forall i: nat :: at(i) == PathMatch(s, p, i);
    LastWhere(p, |s|, at)
  }

  predicate MatchesFrom(s: string, p: nat) {
    p <= |s| && GreedySplit(s, p).Some?
  }

  /** The number in the last path segment: leftmost start, then greedy `.*`. */
  function LastSegmentNumber(s: string): (r: Option<string>)
    ensures r.None? <==> forall i: nat :: !SegmentAt(s, i)
    ensures r.Some? ==> r.value != [] && AllDigits(r.value)
    ensures r.Some? ==> exists p: nat, i: nat ::
      (&& PathMatch(s, p, i)
       && (forall q: nat, j: nat :: q < p ==> !PathMatch(s, q, j))
       && (forall j: nat :: i < j ==> !PathMatch(s, p, j))
       && r.value == DigitsAt(s, i + 2))
  {
    var at := (p: nat) => MatchesFrom(s, p);
    assert forall p: nat :: at(p) == MatchesFrom(s, p);
    match FirstWhere(0, |s| + 1, at)
    case None =>
      SegmentStartsMatch(s);
      None
    case Some(p) =>
      NoEarlierStart(s, p);
      Some(DigitsAt(s, GreedySplit(s, p).value + 2))
  }

  /** A start that does not match has no split at all. */
  lemma NoEarlierStart(s: string, p: nat)
    requires forall q: nat :: q < p ==> !MatchesFrom(s, q)
    ensures forall q: nat, j: nat :: q < p ==> !PathMatch(s, q, j)
  {
    forall q: nat, j: nat | q < p
      ensures !PathMatch(s, q, j)
    {
      if q <= |s| {
        assert !MatchesFrom(s, q);
      }
    }
  }

  /** A segment match can always be reached by starting the pattern right at it. */
  lemma SegmentStartsMatch(s: string)
    ensures forall i: nat :: SegmentAt(s, i) ==> MatchesFrom(s, i)
  {
    forall i: nat | SegmentAt(s, i)
      ensures MatchesFrom(s, i)
    {
      assert PathMatch(s, i, i);
    }
  }

  /** On a single-line URL the leading `.*` can start at 0 and reach any
      segment, so the match is the LAST digit segment. */
  lemma {:induction false} LastSegmentOnOneLine(s: string, i: nat)
    requires NoNewline(s)
    requires SegmentAt(s, i) && forall k: nat :: i < k ==> !SegmentAt(s, k)
    ensures LastSegmentNumber(s) == Some(DigitsAt(s, i + 2))
  {
    assert PathMatch(s, 0, i);
    assert MatchesFrom(s, 0);
    var at := (p: nat) => MatchesFrom(s, p);
    assert at(0);
    assert FirstWhere(0, |s| + 1, at) == Some(0);
    var g := GreedySplit(s, 0);
    assert g == Some(i);
  }

  // ---- `/(\d+)(?:[/?#].*)?$` ------------------------------------------------

  /** `/(\d+)(?:[/?#].*)?$` matches at `k`. */
  predicate SlashNumberAt(s: string, k: nat) {
    k + 1 < |s| && s[k] == '/' && IsDigit(s[k + 1]) && NumberEndsPath(s, DigitRunEnd(s, k + 1))
  }

  function TrailingNumber(s: string): (r: Option<string>)
    ensures r.None? <==> forall k: nat :: !SlashNumberAt(s, k)
    ensures r.Some? ==> r.value != [] && AllDigits(r.value)
    ensures r.Some? ==> exists k: nat ::
      (SlashNumberAt(s, k) && (forall j: nat :: j < k ==> !SlashNumberAt(s, j)) && r.value == DigitsAt(s, k + 1))
  {
    var at := (k: nat) => SlashNumberAt(s, k);
    assert forall k: nat :: at(k) == SlashNumberAt(s, k);
    match FirstWhere(0, |s|, at)
    case None => None
    case Some(k) => Some(DigitsAt(s, k + 1))
  }

  /** The leftmost `/digits` match supplies the number. */
  lemma TrailingNumberLeftmost(s: string, i: nat)
    requires SlashNumberAt(s, i) && forall k: nat :: k < i ==> !SlashNumberAt(s, k)
    ensures TrailingNumber(s) == Some(DigitsAt(s, i + 1))
  {
    var k: nat :| SlashNumberAt(s, k) && (forall j: nat :: j < k ==> !SlashNumberAt(s, j))
      && TrailingNumber(s).value == DigitsAt(s, k + 1);
    assert !(k < i) && !(i < k);
  }

  /** The third pattern can only succeed where the second did not because the
      slash opens the text or follows another slash. */
  lemma TrailingNumberOnlyAfterEmptySegment(s: string, k: nat)
    requires LastSegmentNumber(s).None? && SlashNumberAt(s, k)
    ensures k == 0 || s[k - 1] == '/'
  {
    if k > 0 {
      assert !SegmentAt(s, k - 1);
    }
  }

  // ---- `(?:issue|ticket|task)(?:s)?[/=](\d+)` ----------------------------------

  /** The length of the keyword starting at `k`, or 0. */
  function KeywordLength(t: string, k: nat): (w: nat)
    ensures w == 0 || w == 4 || w == 5 || w == 6
    ensures w > 0 ==> k + w <= |t|
  {
    if k > |t| then 0
    else if HasPrefix(t[k..], "issue") then 5
    else if HasPrefix(t[k..], "ticket") then 6
    else if HasPrefix(t[k..], "task") then 4
    else 0
  }

  /** Where the digits begin when the keyword pattern matches at `k`. The
      optional `s` is tried first; a following `/` or `=` is required either way. */
  function KeywordDigits(t: string, k: nat): (r: Option<nat>)
    ensures r.Some? ==> k < r.value < |t| && IsDigit(t[r.value])
  {
    var w := KeywordLength(t, k);
    if w == 0 then None
    else
      var m := k + w;
      if m + 2 < |t| && t[m] == 's' && t[m + 1] in "/=" && IsDigit(t[m + 2]) then Some(m + 2)
      else if m + 1 < |t| && t[m] in "/=" && IsDigit(t[m + 1]) then Some(m + 1)
      else None
  }

  predicate KeywordAt(t: string, k: nat) {
    KeywordDigits(t, k).Some?
  }

  /** The number after `issue`, `ticket` or `task`, matched on the lower-cased text. */
  function KeywordNumber(s: string): (r: Option<string>)
    ensures r.None? <==> forall k: nat :: !KeywordAt(ToLower(s), k)
    ensures r.Some? ==> exists k: nat ::
      (&& KeywordAt(ToLower(s), k) && (forall j: nat :: j < k ==> !KeywordAt(ToLower(s), j))
       && r.value == DigitsAt(ToLower(s), KeywordDigits(ToLower(s), k).value))
  {
    LeftmostKeywordNumber(ToLower(s))
  }

  function LeftmostKeywordNumber(t: string): (r: Option<string>)
    ensures r.None? <==> forall k: nat :: !KeywordAt(t, k)
    ensures r.Some? ==> r.value != [] && AllDigits(r.value)
    ensures r.Some? ==> exists k: nat ::
      (&& KeywordAt(t, k) && (forall j: nat :: j < k ==> !KeywordAt(t, j))
       && r.value == DigitsAt(t, KeywordDigits(t, k).value))
  {
    var at := (k: nat) => KeywordAt(t, k);
    assert forall k: nat {:trigger KeywordAt(t, k)} :: at(k) == KeywordAt(t, k);
    match FirstWhere(0, |t| + 1, at)
    case None => None
    case Some(k) => Some(DigitsAt(t, KeywordDigits(t, k).value))
  }

  /** The keyword pattern ignores case: URLs that lower-case alike give the
      same number. */
  lemma KeywordNumberIgnoresCase(s1: string, s2: string)
    requires ToLower(s1) == ToLower(s2)
    ensures KeywordNumber(s1) == KeywordNumber(s2)
  {
  }

  /** The leftmost keyword match supplies the number. */
  lemma LeftmostKeywordWins(t: string, k: nat)
    requires KeywordAt(t, k) && forall j: nat :: j < k ==> !KeywordAt(t, j)
    ensures LeftmostKeywordNumber(t) == Some(DigitsAt(t, KeywordDigits(t, k).value))
  {
    var at := (k: nat) => KeywordAt(t, k);
    assert forall k: nat {:trigger KeywordAt(t, k)} :: at(k) == KeywordAt(t, k);
    var f := FirstWhere(0, |t| + 1, at);
    assert at(k);
    assert f.Some? && f.value == k;
  }

  // ---- `(\d{6,})` ---------------------------------------------------------------

  predicate LongNumberAt(s: string, k: nat) {
    k <= |s| && DigitRunEnd(s, k) >= k + 6
  }

  /** The leftmost run of six or more digits, taken whole. */
  function LongNumber(s: string): (r: Option<string>)
    ensures r.None? <==> forall k: nat :: !LongNumberAt(s, k)
    ensures r.Some? ==> |r.value| >= 6 && AllDigits(r.value)
    ensures r.Some? ==> exists k: nat ::
      (LongNumberAt(s, k) && (forall j: nat :: j < k ==> !LongNumberAt(s, j)) && r.value == DigitsAt(s, k))
  {
    var at := (k: nat) => LongNumberAt(s, k);
    assert forall k: nat :: at(k) == LongNumberAt(s, k);
    match FirstWhere(0, |s| + 1, at)
    case None => None
    case Some(k) => Some(DigitsAt(s, k))
  }

  /** The leftmost run of six or more digits supplies the number. */
  lemma LongNumberLeftmost(s: string, k: nat)
    requires LongNumberAt(s, k) && forall j: nat :: j < k ==> !LongNumberAt(s, j)
    ensures LongNumber(s) == Some(DigitsAt(s, k))
  {
    var m: nat :| LongNumberAt(s, m) && (forall j: nat :: j < m ==> !LongNumberAt(s, j))
      && LongNumber(s).value == DigitsAt(s, m);
    assert !(m < k) && !(k < m);
  }

  /** Every pattern captures digits, so a URL without digits matches none of them. */
  lemma NoDigitsNoMatch(s: string)
    requires forall i :: 0 <= i < |s| ==> !IsDigit(s[i])
    ensures ProjectKeyNumber(s).None? && LastSegmentNumber(s).None? && TrailingNumber(s).None?
    ensures KeywordNumber(s).None? && LongNumber(s).None?
  {
    var t := ToLower(s);
    assert forall i :: 0 <= i < |t| ==> !IsDigit(t[i]);
    forall k: nat ensures !LongNumberAt(s, k) {
      if k < |s| {
        assert DigitRunEnd(s, k) == k;
      }
    }
  }
}

=== FILE: wrappers.dfy ===
/** Optional values and results with an error, the two shapes Go expresses
    with a second return value (`v, ok` and `v, err`). */
module Wrappers {

  datatype Option<+T> = None | Some(value: T)

  datatype Result<+T, +E> = Success(value: T) | Failure(error: E)
}
